=== FILE: README.md ===
# Attendance proxy decision logic, in Dafny

A model of the decision logic in a small Express proxy for the Talenta
attendance service. The model covers three parts:

- **Geofence admission** (`location.js`). A location service holds a list of
  allowed locations and one radius. If the list is empty, every point is
  admitted. Otherwise a point is admitted when its distance to at least one
  allowed location is `<=` the radius. The great-circle distance is a
  parameter of the model (`Location.Distance`).
- **Request middleware** (`lib/middleware.js`). Before the clock-in and
  clock-out handlers run, a check either answers 400 with a message or calls
  `next()`. It checks the employee id first, then that the coordinates are
  present, then that they are numeric. The last two checks run only when
  `VALIDATE_LOCATION` is `"true"`.
- **Handlers** (`lib/talenta-controller.js`). `clockIn`, `clockOut`,
  `getAttendance`, `getAttendanceSummary` and `makeAPICall`. Each handler
  does one pass:
  1. check the request;
  2. optionally consult the geofence;
  3. build the snake_case payload for the provider;
  4. answer with mock data when no `TALENTA_API_KEY` is set, or call the
     provider otherwise.

JavaScript semantics are written out explicitly in `JsValues`, because the
source depends on them:

- truthiness: `!x` and `x || y`, so a coordinate of `0` counts as missing;
- `<=` on numbers, which is false whenever NaN is involved;
- the global `isNaN`, including how strings convert to numbers (the
  StringNumericLiteral grammar, section 7.1.4.1 of ECMA-262) and how arrays
  convert through their joined text.

`JsObjects` models objects as ordered key/value lists, so that the object
spread `{ employeeId, clockInTime, ...response.data }` can be stated: which
value each key reads after the spread and which keys it has. The key order
is stated only for objects with no array index key, because JavaScript
lists such keys ("0", "1", …) first.

Each handler is split in two:

- `Decide…` is pure. It ends in `Status400`, `MockOk`, `Error500` or
  `CallUpstream(config)`.
- `Finish…` turns the provider's answer, or the error it threw, into the
  final response.

The complete handlers (`ClockIn`, `ClockOut`, `GetAttendance`,
`GetAttendanceSummary`) take the provider as a function from request config
to outcome. The current time, the environment variables and the geofence
verdict are explicit parameters.

`Pipeline` models `lib/routes.js` twice, because as written it cannot serve
a request (see "## Findings"):

- **As written.** `MountRoutes(RoutesAsWritten)` throws when the module
  loads, because two routes are given `undefined` handlers. And
  `RouteAsWired` is the answer of a clock route whose handler runs with
  `this` undefined: past the 400 checks, every request fails with 500.
- **As intended.** `RoutesIntended` mounts the four defined routes.
  `RouteBound` and the method `Route` run the middleware,
  `Location.ValidateLocation` and the handler called on the controller.

Some behaviour of the code worth knowing, which the model follows:

- **One radius for all locations.** The code applies the single radius
  `LOCATION_RADIUS` (default 100) to every allowed location. There is no
  per-location radius.
- **No numeric check in the handlers.** The handlers check that coordinates
  are present but never check that they are numeric. Only the middleware
  calls `isNaN`.
- **`isNaN` accepts non-numbers.** It lets through the boolean `true` and a
  one-element array holding a number (`Middleware.NonNumbersPass`). An empty
  array is truthy and converts to 0, so it passes as well.
- **No bulk operations.** `lib/routes.js` routes to `bulkClockIn` and
  `bulkClockOut`, but the controller does not define them. There is no
  batch behaviour to model, and the route file as written throws on load
  (`Pipeline.WrittenRoutesThrowOnLoad`).

## Model

| member | source | states |
|---|---|---|
| Location.NewLocationService | location.js:4-7 | the service keeps the allowed list as given; the radius is 100 when `LOCATION_RADIUS` is unset or empty, otherwise the configured value |
| Location.DefaultServiceAdmission | location.js:5-22 | without `LOCATION_RADIUS`, a point is admitted iff no location is configured or some configured location is at most 100 from it |
| Location.ValidateLocation | location.js:9-23 | the first-hit scan returns true iff the list is empty or some allowed location is within the one radius (`Admits`); an empty list admits every point |
| Location.AdmissionIgnoresOrder | location.js:14-22 | any rearrangement of the allowed list (same multiset) admits exactly the same points |
| Location.BoundaryIsAdmitted | location.js:17 | the bound is inclusive: a point at exactly the radius from an allowed location is admitted |
| Location.WiderRadiusAdmitsMore | location.js:17 | raising the single radius never rejects a point that was admitted |
| Location.NaNNeverAdmits | location.js:17 | with a NaN radius and a non-empty list no point is admitted, since every `<=` with NaN is false |
| Location.NaNDistanceNeverAdmits | location.js:14-22 | a point whose distance to every configured location is NaN is not admitted, whatever the radius |
| Location.GetLocationInfo | location.js:38-45 | the latitude and longitude come back unchanged, stamped with the current time |
| JsValues.Or | lib/talenta-controller.js:50-52 | `a || b` is `a` when `a` is truthy, else `b`; the result is truthy iff either operand is |
| JsValues.CommaIsNeverNumeric | lib/middleware.js:19 | no string containing a comma converts to a number, so `isNaN` holds of every array with two or more elements |
| Middleware.ValidateClockIn | lib/middleware.js:1-28 | a falsy id gives 400 "Employee ID is required" whatever else the body holds; with validation off a truthy id always reaches `next()`; with it on, a falsy coordinate gives "Location coordinates are required" and a NaN coordinate gives "Invalid location coordinates"; `next()` happens iff none of these applies |
| Middleware.ValidateClockOut | lib/middleware.js:30-57 | the clock-out check gives the same outcome as the clock-in check on every body and setting |
| Middleware.ZeroCoordinateIsMissing | lib/middleware.js:12 | a coordinate equal to 0 is rejected as missing when validation is on |
| Middleware.CoordinatesIgnoredWhenDisabled | lib/middleware.js:11 | with validation off, two bodies with the same id get the same outcome, whatever their coordinates |
| Middleware.NumericTextPasses | lib/middleware.js:19 | non-empty numeric strings as coordinates pass the checks when validation is on |
| Middleware.NonNumbersPass | lib/middleware.js:19-24 | `true`, and one-element arrays holding a number, pass the NaN check as coordinates |
| Middleware.CoordinatePairRejected | lib/middleware.js:19-24 | a two-element array as latitude is rejected as invalid coordinates |
| JsObjects.AssignGet | lib/talenta-controller.js:79 | after a spread, a key the source object has reads the source's value, and every other key reads the target's value |
| JsObjects.AssignKeys | lib/talenta-controller.js:76-79 | a spread has exactly the keys of the target and of the source; when no key is an array index, the target's keys stay in front and in order |
| JsObjects.SpreadEntries | lib/talenta-controller.js:79 | spreading an object copies its fields; spreading `null`, `undefined`, a boolean or a number copies nothing |
| JsObjects.DecimalRoundTrip | lib/talenta-controller.js:254 | the decimal text of a number reads back as that number |
| JsObjects.PaddedMonthDigits | lib/talenta-controller.js:254 | a month 1 to 12, written out and padded with `padStart(2, "0")`, is exactly two digits with the month's value |
| TalentaController.BaseUrl | lib/talenta-controller.js:6 | the base URL is `TALENTA_BASE_URL` when it is set and non-empty, else `https://api.talenta.co` |
| TalentaController.MakeApiCall | lib/talenta-controller.js:284-306 | fails with "TALENTA_API_KEY is not configured" iff no key is set, and builds a config iff one is; the config has the method and the base URL plus endpoint, and carries `data` and `params` exactly when they are truthy |
| TalentaController.ErrorDetail | lib/talenta-controller.js:87 | the 500 `error` field is the real message when `NODE_ENV` is `development`, and "Internal server error" otherwise |
| TalentaController.Caught | lib/talenta-controller.js:82-88 | a thrown error becomes a 500 with the handler's failure message and the `error` field of the `NODE_ENV` rule |
| TalentaController.Dispatch | lib/talenta-controller.js:71-88 | a config that was built becomes the provider call; a failure to build one becomes the handler's `catch` answer: 500 with the handler's message and the `error` field of the `NODE_ENV` rule |
| TalentaController.DecideClock | lib/talenta-controller.js:14-71 | a falsy id gives 400 first; with validation on, falsy coordinates give 400 and a geofence rejection gives 400 "Invalid location for clock in/out"; a request that passes is answered with the mock data without a key; the provider is called iff the checks pass and a key is set, with a POST of exactly the snake_case payload; a geofence that throws, and only that, gives the `catch` answer "Clock in/out failed" |
| TalentaController.FinishClock | lib/talenta-controller.js:73-89 | a provider answer gives 200 "Clock in/out successful" with an object; a thrown error gives the 500 answer "Clock in/out failed" |
| TalentaController.HandleClock | lib/talenta-controller.js:14-90 | the complete handler never leaves a call pending; it answers as `DecideClock` whenever no call is decided; when a call is decided, the answer is `FinishClock` of the provider's reply to that call; a provider answer only follows passed checks and a configured key |
| TalentaController.ClockIn | lib/talenta-controller.js:14-90 | a falsy id gives 400 "Employee ID is required"; every 200 answer comes from a request that passed the checks; a 400, the mock answer or a geofence 500 is the clock-in decision itself, and a decided call is answered from the provider's reply (200 "Clock in successful" with the spread data, or the `catch` answer) |
| TalentaController.ClockOut | lib/talenta-controller.js:92-168 | the same guarantees for clock-out: its decision is the answer unless a call is decided, and then the answer is built from the provider's reply |
| TalentaController.PayloadLocationRule | lib/talenta-controller.js:49 | the payload `location` is `{latitude, longitude}` with the body's values iff both coordinates are truthy, and null otherwise |
| TalentaController.PayloadDefaults | lib/talenta-controller.js:46-53 | `notes` is kept when truthy and defaults to ""; `device_info` is a non-empty User-Agent or "Unknown"; the id and time are carried under the snake_case keys `employee_id` and `clock_in_time`/`clock_out_time` |
| TalentaController.MockClockDataFields | lib/talenta-controller.js:56-68 | the mock data holds the id, the time, the payload's location and notes, and `mock: true` |
| TalentaController.MockEchoesPayload | lib/talenta-controller.js:56-68 | without a key, a request that passes is answered 200 with `mock === true`, echoing the id, time, location and notes the payload would have carried |
| TalentaController.UpstreamFieldsWin | lib/talenta-controller.js:73-81 | provider fields spread after `employeeId` and the time win on a clash; otherwise those two keep the handler's values; when the provider sends no array index key, they come first in key order |
| TalentaController.DecideAttendance | lib/talenta-controller.js:170-213 | an empty id gives 400; no key gives the mock records; the provider is called iff the id is present and a key is set, with a GET carrying the params and no data |
| TalentaController.AttendanceDates | lib/talenta-controller.js:182-186 | a supplied non-empty start or end date is passed through unchanged, otherwise the month bound is used; the mock period shows the same dates |
| TalentaController.FinishRead | lib/talenta-controller.js:213-226 | the provider's body is returned as the data; a thrown error gives the `catch` answer: 500 with the failure message and the `error` field of the `NODE_ENV` rule |
| TalentaController.GetAttendance | lib/talenta-controller.js:170-227 | the 400 and the mock records are the answer as decided; a decided GET is answered with the provider's body as the data, or with the 500 "Failed to get attendance records" when it throws; a 200 provider answer only follows a present id and a configured key |
| TalentaController.ParamOf | lib/talenta-controller.js:243-244 | a non-empty query value is used as given, otherwise the clock's month or year |
| TalentaController.DecideSummary | lib/talenta-controller.js:229-268 | an empty id gives 400; no key gives the mock summary; the provider is called iff the id is present and a key is set, with a GET carrying month and year |
| TalentaController.GetAttendanceSummary | lib/talenta-controller.js:229-282 | the 400 and the mock summary are the answer as decided; a decided GET is answered with the provider's body as the data, or with the 500 "Failed to get attendance summary" when it throws; a 200 provider answer only follows a present id and a configured key |
| TalentaController.DefaultPeriodHasTwoDigitMonth | lib/talenta-controller.js:254 | with the month from the clock, the mock period is the year, a dash and two digits that read back as the month |
| TalentaController.GivenMonthPadding | lib/talenta-controller.js:254 | a one-character month from the query gets a leading zero in the period; a longer one is used as given |
| Pipeline.MountRoutes | lib/routes.js:7-20 | registration succeeds iff every route has a handler, and then mounts each route's method and path in order; otherwise it throws the error of a route without one |
| Pipeline.FirstMissingHandlerThrows | lib/routes.js:7-20 | the error is the one of the first route without a handler, whatever follows it |
| Pipeline.WrittenRoutesThrowOnLoad | lib/routes.js:19-20 | the six routes as written throw `Route.post() requires a callback function but got a [object Undefined]` for `POST /bulk/clockin`, so none is mounted |
| Pipeline.IntendedRoutesMount | lib/routes.js:7-16 | the four routes with defined handlers mount, in the file's order |
| Pipeline.MiddlewareCoversHandlerChecks | lib/routes.js:7-10 | once the middleware calls `next()`, the handler's missing-id and missing-coordinates answers cannot occur |
| Pipeline.RouteBound | lib/routes.js:7-10 | with the handler bound: a middleware rejection is the answer, and once the middleware calls `next()` the handler's answer is the route's; no call is left pending; a 200 only follows a request that passed the middleware and the handler's checks |
| Pipeline.BoundRouteMocksWithoutKey | lib/talenta-controller.js:56-68 | with the handler bound and no key, a request that passes both checks is answered with the mock data |
| Pipeline.BoundRouteAnswers | lib/talenta-controller.js:28-81 | bound, a request the middleware passes gets "Invalid location for clock in/out" when validation is on and the geofence refuses it, and otherwise, with a key, the answer built from the provider's reply to the POST of the payload |
| Pipeline.RouteAsWired | lib/routes.js:7-10 | with the handler detached, the answer is always a 400 or a 500; a request that passes every check fails with the clock's 500 answer carrying the `this.apiKey` `TypeError` |
| Pipeline.WiredRouteFailsPastChecks | lib/talenta-controller.js:56 | the detached handler gives exactly the bound handler's 400 answers; every other request fails with "Clock in failed" or "Clock out failed" |
| Pipeline.DetachedClockInFails | lib/routes.js:7 | a clock-in with only `employeeId: "E1"`, validation off and no key is the mock answer when bound, and 500 "Clock in failed" as wired |
| Pipeline.Route | lib/routes.js:7-10 | with the handler bound: a middleware rejection is the answer; with validation on, a point the geofence refuses gets 400 "Invalid location for clock in/out" and an admitted one is served; a served request gets the mock answer without a key and, with a key, the answer built from the provider's reply to the POST of the payload; every 200 follows a truthy id and, with validation on, non-NaN coordinates the geofence admits |

## Findings

| source | as written | input that shows it | evidently intended | confidence | as-written member | corrected member |
|---|---|---|---|---|---|---|
| lib/routes.js:7-16 | the controller's methods are passed as plain functions, so `this` is `undefined` inside them and the first `this.apiKey` read throws a `TypeError`, which the handler's `catch` answers with 500 | `POST /clockin` with body `{"employeeId": "E1"}`, `VALIDATE_LOCATION` unset, no `TALENTA_API_KEY` | the handler runs on the controller (`talentaController.clockIn.bind(talentaController)`) and answers with the mock data | high, not executed | Pipeline.DetachedClockInFails | Pipeline.BoundRouteMocksWithoutKey |
| lib/routes.js:19-20 | `bulkClockIn` and `bulkClockOut` are not defined, so `router.post` receives `undefined` and throws while the module loads | loading the route file | only the defined routes are registered | high, not executed | Pipeline.WrittenRoutesThrowOnLoad | Pipeline.IntendedRoutesMount |

## Left out

- The haversine arithmetic of `calculateDistance` (location.js:25-36) is floating-point trigonometry. It is the parameter `Location.Distance`, and only the admission rule is proved.
- Parsing `ALLOWED_LOCATIONS` as JSON and converting the `LOCATION_RADIUS` string to a number (location.js:5-6) are not modelled. The allowed list is taken already parsed, and the radius setting already converted, with `None` for unset or empty.
- The HTTP request itself (lib/talenta-controller.js:289-308) is I/O: the `axios` call, the `Authorization`, `Content-Type` and `User-Agent` headers, and the 30-second timeout. The model keeps the decision to call, the method, the URL, `data` and `params`. The provider's reply is a function parameter.
- The `moment()` clock reads are the `Clock` parameter and the `timestamp` argument. So are `new Date()` in `getLocationInfo`.
- `getLocationInfo`'s `catch` branch returning `null` is not modelled. Its body builds an object literal and cannot throw for a valid clock.
- `bulkClockIn` and `bulkClockOut` are not modelled. lib/routes.js names them, but lib/talenta-controller.js does not define them; only their effect on loading the routes is (`Pipeline.MountRoutes`).
- The GET routes with a detached handler are not modelled separately. `getAttendance` and `getAttendanceSummary` read `this.apiKey` right after the id check (lib/talenta-controller.js:189 and 248), so they would fail the same way as `Pipeline.RouteAsWired`. As written, no route is mounted anyway.
- JsObjects.AssignKeys: the key order is claimed only when neither object has an array index key. JavaScript lists such keys first in ascending numeric order, while the model keeps insertion order for every key (`JsObjects.AssignKeepsTargetKeys`).
- TalentaController.UpstreamFieldsWin: that `employeeId` and the time come first is claimed only when the provider sends no array index key, for the same reason.
- The Express bootstrap, CORS and helmet, the health, 404 and 500 handlers (index.js), and the Express router's request dispatch are left out as plumbing. So are process clustering and signals (start.js), the PID-file kill (stop.js), child processes (execute.js), the empty cron stubs (scheduler.js) and the live HTTP test script.
- Console logging is left out, including the constructor's warning about a missing key.
- Query values are modelled as strings only. The query parser can also produce arrays and objects for `startDate`, `endDate`, `month` and `year`.
- `JsValues.IsNaN` covers the values a JSON body can hold. Objects convert through "[object Object]". No custom `valueOf` or `toString`, Symbol or BigInt is modelled.
- JsObjects.SpreadEntries: spreading a string copies one entry per Dafny character (Unicode scalar value). JavaScript uses one entry per UTF-16 code unit, so strings with characters outside the Basic Multilingual Plane differ.
- TalentaController.GivenMonthPadding: the model's `padStart` (`JsObjects.PadStart2`) counts Unicode scalar values, while JavaScript counts UTF-16 code units. A month given as one character outside the Basic Multilingual Plane, such as U+1D7D9, has length 2 in JavaScript and is left alone, but the model pads it with a zero.
- Exceptions other than a failing geofence and a failing provider call are not modelled, such as a request without `req.connection`. Such an exception would also end in the handler's 500 answer.
- Status codes and the `success` flag of the JSON envelope are implied by the `Response` constructors rather than stored. `Status400` means `success: false` with the message; `MockOk` and `Ok200` mean 200 with `success: true`; `Error500` means `success: false` with the message and error.

=== FILE: js_objects.dfy ===
/** Plain JavaScript objects as ordered key/value lists, property lookup,
    property assignment and the object spread `{...a, ...b}`, together
    with the decimal text of non-negative integers and `padStart`. */
module JsObjects {

  import opened JsValues

  type Fields = seq<(string, JsValue)>

  /** The keys of an object, in insertion order. */
  function Keys(o: Fields): (ks: seq<string>)
    ensures |ks| == |o|
    ensures forall i :: 0 <= i < |o| ==> ks[i] == o[i].0
  {
    if o == [] then [] else [o[0].0] + Keys(o[1..])
  }

  /** An array index key: the canonical decimal text of an integer from
      0 to 2^32 - 2. JavaScript lists such keys first, in ascending
      numeric order, before all other string keys in insertion order. */
  predicate IsArrayIndexKey(k: string) {
    && |k| > 0 && AllDigits(k)
    && (|k| == 1 || k[0] != '0')
    && DecimalValue(k) < 0xFFFF_FFFF
  }

  /** No key is an array index, so JavaScript's key order is insertion
      order, as in this model. */
  predicate NoIndexKeys(o: Fields) {
    forall i :: 0 <= i < |o| ==> !IsArrayIndexKey(o[i].0)
  }

  /** No key occurs twice, as in every object JavaScript builds. */
  predicate UniqueKeys(o: Fields) {
    forall i, j :: 0 <= i < j < |o| ==> o[i].0 != o[j].0
  }

  /** `o[k]`: the value of the first property named `k`, `undefined`
      when there is none. */
  function Get(o: Fields, k: string): (v: JsValue)
    ensures v != Undefined ==> k in Keys(o)
  {
    if o == [] then Undefined
    else if o[0].0 == k then o[0].1
    else Get(o[1..], k)
  }

  /** Reading a key finds the first property of that name. */
  lemma {:induction false} GetAt(o: Fields, i: nat, k: string)
    requires i < |o| && o[i].0 == k
    requires forall j :: 0 <= j < i ==> o[j].0 != k
    ensures Get(o, k) == o[i].1
  {
    if i > 0 {
      GetAt(o[1..], i - 1, k);
    }
  }

  /** `o[k] = v`: an existing property keeps its place and takes the new
      value; a new one is appended (`PutGet`, `PutKeys`). */
  function Put(o: Fields, k: string, v: JsValue): (r: Fields)
    ensures |r| == |o| || |r| == |o| + 1
  {
    if o == [] then [(k, v)]
    else if o[0].0 == k then [(k, v)] + o[1..]
    else [o[0]] + Put(o[1..], k, v)
  }

  /** After `o[k] = v`, `k` reads `v` and every other key reads as before. */
  lemma {:induction false} PutGet(o: Fields, k: string, v: JsValue, k': string)
    ensures Get(Put(o, k, v), k) == v
    ensures k' != k ==> Get(Put(o, k, v), k') == Get(o, k')
  {
    if o != [] && o[0].0 != k {
      PutGet(o[1..], k, v, k');
    }
  }

  /** Assigning an existing key keeps the key list; a new key goes last. */
  lemma {:induction false} PutKeys(o: Fields, k: string, v: JsValue)
    ensures k in Keys(o) ==> Keys(Put(o, k, v)) == Keys(o)
    ensures k !in Keys(o) ==> Keys(Put(o, k, v)) == Keys(o) + [k]
  {
    if o != [] && o[0].0 != k {
      PutKeys(o[1..], k, v);
      assert Keys(o) == [o[0].0] + Keys(o[1..]);
    }
  }

  /** Copies the properties of `src`, in order, onto `target`: the object
      literal `{...target, ...src}`. */
  function Assign(target: Fields, src: Fields): (r: Fields)
    ensures |r| >= |target|
    decreases |src|
  {
    if src == [] then target
    else Assign(Put(target, src[0].0, src[0].1), src[1..])
  }

  /** After a spread, a key of the source reads the source's value (its
      last occurrence would win; JSON objects have one) and every other
      key reads the target's value. */
  lemma {:induction false} AssignGet(target: Fields, src: Fields, k: string)
    requires UniqueKeys(src)
    ensures k in Keys(src) ==> Get(Assign(target, src), k) == Get(src, k)
    ensures k !in Keys(src) ==> Get(Assign(target, src), k) == Get(target, k)
    decreases |src|
  {
    if src != [] {
      var t' := Put(target, src[0].0, src[0].1);
      PutGet(target, src[0].0, src[0].1, k);
      assert UniqueKeys(src[1..]);
      AssignGet(t', src[1..], k);
      assert Keys(src) == [src[0].0] + Keys(src[1..]);
      if k == src[0].0 {
        assert k !in Keys(src[1..]);
      }
    }
  }

  /** The model's key list after a spread starts with the target's keys,
      in order (insertion order). */
  lemma {:induction false} AssignKeepsTargetKeys(target: Fields, src: Fields)
    ensures Keys(Assign(target, src))[..|target|] == Keys(target)
    decreases |src|
  {
    if src != [] {
      var t' := Put(target, src[0].0, src[0].1);
      PutKeys(target, src[0].0, src[0].1);
      AssignKeepsTargetKeys(t', src[1..]);
      assert Keys(t')[..|target|] == Keys(target);
    }
  }

  /** A spread adds only keys of the source, and, when neither object has
      an array index key, keeps every key of the target in front and in
      order. */
  lemma {:induction false} AssignKeys(target: Fields, src: Fields)
    ensures NoIndexKeys(target) && NoIndexKeys(src) ==> Keys(Assign(target, src))[..|target|] == Keys(target)
    ensures forall k :: k in Keys(Assign(target, src)) <==> k in Keys(target) || k in Keys(src)
    decreases |src|
  {
    AssignKeepsTargetKeys(target, src);
    if src != [] {
      var t' := Put(target, src[0].0, src[0].1);
      PutKeys(target, src[0].0, src[0].1);
      AssignKeys(t', src[1..]);
      assert Keys(src) == [src[0].0] + Keys(src[1..]);
    }
  }

  /** The own enumerable properties that `...v` copies: an object's
      fields, an array's or a string's index/element pairs, and nothing
      for `null`, `undefined`, booleans and numbers. */
  function SpreadEntries(v: JsValue): (r: Fields)
    ensures v.Obj? ==> r == v.fields
    ensures !v.Obj? && !v.Arr? && !v.Str? ==> r == []
  {
    match v
    case Obj(f) => f
    case Arr(items) => seq(|items|, i requires 0 <= i < |items| => (NatToDecimal(i), items[i]))
    case Str(t) => seq(|t|, i requires 0 <= i < |t| => (NatToDecimal(i), Str([t[i]])))
    case _ => []
  }

  // ---------------------------------------------------------------------
  // Decimal text and padStart
  // ---------------------------------------------------------------------

  function DigitChar(d: nat): (c: char)
    requires d < 10
    ensures IsDecimalDigit(c)
  {
    "0123456789"[d]
  }

  /** `n.toString()` for a non-negative integer: its shortest decimal text. */
  function NatToDecimal(n: nat): (s: string)
    ensures |s| >= 1
    ensures forall i :: 0 <= i < |s| ==> IsDecimalDigit(s[i])
  {
    if n < 10 then [DigitChar(n)] else NatToDecimal(n / 10) + [DigitChar(n % 10)]
  }

  function DigitValue(c: char): (d: nat)
    requires IsDecimalDigit(c)
    ensures d < 10
  {
    (c as int) - ('0' as int)
  }

  predicate AllDigits(s: string) {
    forall i :: 0 <= i < |s| ==> IsDecimalDigit(s[i])
  }

  /** The value of a string of decimal digits. */
  function DecimalValue(s: string): nat
    requires AllDigits(s)
  {
    if s == [] then 0
    else 10 * DecimalValue(s[..|s| - 1]) + DigitValue(s[|s| - 1])
  }

  /** Reading the decimal text back gives the number. */
  lemma {:induction false} DecimalRoundTrip(n: nat)
    ensures DecimalValue(NatToDecimal(n)) == n
  {
    if n >= 10 {
      var s := NatToDecimal(n);
      assert s[..|s| - 1] == NatToDecimal(n / 10);
      DecimalRoundTrip(n / 10);
    }
  }

  /** A month number, written out and padded to two characters, is two
      digits that read back as the month. */
  lemma {:induction false} PaddedMonthDigits(m: nat)
    requires 1 <= m <= 12
    ensures var mm := PadStart2(NatToDecimal(m));
      |mm| == 2 && AllDigits(mm) && DecimalValue(mm) == m
  {
    var text := NatToDecimal(m);
    var mm := PadStart2(text);
    if m < 10 {
      assert text == [DigitChar(m)];
      assert mm == ['0', DigitChar(m)];
      assert mm[..1] == ['0'];
      assert ['0'][..0] == [];
      assert DecimalValue(['0']) == 0;
      assert DigitValue(DigitChar(m)) == m;
    } else {
      assert mm == text;
      DecimalRoundTrip(m);
    }
  }

  /** `s.padStart(2, "0")`: zeros on the left up to two characters. */
  function PadStart2(s: string): (r: string)
    ensures |r| == if |s| >= 2 then |s| else 2
    ensures r[|r| - |s|..] == s
    ensures forall i :: 0 <= i < |r| - |s| ==> r[i] == '0'
  {
    if |s| >= 2 then s
    else if |s| == 1 then "0" + s
    else "00"
  }
}

=== FILE: js_values.dfy ===
/** The slice of JavaScript value semantics the attendance proxy relies on:
    JSON-shaped values, truthiness (`!x`, `x || y`), the relational `<=`
    on numbers, and the global `isNaN`, whose coercion of strings follows
    the StringNumericLiteral grammar of section 7.1.4.1 of ECMA-262. */
module JsValues {

  import opened Wrappers

  /** An IEEE-754 double as far as this model needs it: NaN, the two
      infinities, or a finite value (both zeros are `Finite(0.0)`). */
  datatype JsNumber = NaN | Infinity(negative: bool) | Finite(value: real)

  /** A JavaScript value as it arrives in a parsed JSON body or is built
      by the handlers. Objects are ordered key/value lists. */
  datatype JsValue =
    | Undefined
    | Null
    | Bool(b: bool)
    | Num(n: JsNumber)
    | Str(s: string)
    | Arr(items: seq<JsValue>)
    | Obj(fields: seq<(string, JsValue)>)

  /** ToBoolean: the falsy values are `undefined`, `null`, `false`, `0`,
      `-0`, `NaN` and the empty string; every object and array is truthy. */
  predicate Truthy(v: JsValue) {
    match v
    case Undefined => false
    case Null => false
    case Bool(b) => b
    case Num(n) => !n.NaN? && n != Finite(0.0)
    case Str(s) => s != ""
    case Arr(_) => true
    case Obj(_) => true
  }

  /** `a || b`: the first operand when it is truthy, else the second. */
  function Or(a: JsValue, b: JsValue): (r: JsValue)
    ensures Truthy(a) ==> r == a
    ensures !Truthy(a) ==> r == b
    ensures Truthy(r) <==> Truthy(a) || Truthy(b)
  {
    if Truthy(a) then a else b
  }

  /** A string, or `undefined` when it is absent (an unset environment
      variable, a missing header or query parameter). */
  function FromOption(s: Option<string>): JsValue
  {
    match s
    case Some(t) => Str(t)
    case None => Undefined
  }

  /** `a <= b` on two numbers: false whenever either side is NaN. */
  predicate LessOrEqual(a: JsNumber, b: JsNumber) {
    match (a, b)
    case (NaN, _) => false
    case (_, NaN) => false
    case (Infinity(na), Infinity(nb)) => na || !nb
    case (Infinity(na), Finite(_)) => na
    case (Finite(_), Infinity(nb)) => !nb
    case (Finite(x), Finite(y)) => x <= y
  }

  // ---------------------------------------------------------------------
  // StringNumericLiteral (ECMA-262, section 7.1.4.1)
  // ---------------------------------------------------------------------

  /** StrWhiteSpaceChar: WhiteSpace and LineTerminator code points. */
  predicate IsStrWhiteSpace(c: char) {
    || c == '\t' || c == '\U{B}' || c == '\U{C}' || c == ' '
    || c == '\U{A0}' || c == '\U{FEFF}'
    || c == '\n' || c == '\r' || c == '\U{2028}' || c == '\U{2029}'
    || c == '\U{1680}' || ('\U{2000}' <= c <= '\U{200A}')
    || c == '\U{202F}' || c == '\U{205F}' || c == '\U{3000}'
  }

  predicate IsDecimalDigit(c: char) { '0' <= c <= '9' }

  predicate IsHexDigit(c: char) {
    IsDecimalDigit(c) || ('a' <= c <= 'f') || ('A' <= c <= 'F')
  }

  predicate IsOctalDigit(c: char) { '0' <= c <= '7' }

  predicate IsBinaryDigit(c: char) { c == '0' || c == '1' }

  /** The string with leading and trailing StrWhiteSpace removed. */
  function Trim(s: string): (t: string)
    ensures |t| <= |s|
    ensures t != [] ==> !IsStrWhiteSpace(t[0]) && !IsStrWhiteSpace(t[|t| - 1])
    ensures forall c :: c in t ==> c in s
    decreases |s|
  {
    if s == [] then s
    else if IsStrWhiteSpace(s[0]) then Trim(s[1..])
    else if IsStrWhiteSpace(s[|s| - 1]) then Trim(s[..|s| - 1])
    else s
  }

  /** The end of the run of decimal digits that starts at `i`. */
  function DigitsEnd(s: string, i: nat): (k: nat)
    requires i <= |s|
    ensures i <= k <= |s|
    ensures forall j :: i <= j < k ==> IsDecimalDigit(s[j])
    ensures k < |s| ==> !IsDecimalDigit(s[k])
    decreases |s| - i
  {
    if i < |s| && IsDecimalDigit(s[i]) then DigitsEnd(s, i + 1) else i
  }

  /** `s[i..]` is empty or an ExponentPart: `e`/`E`, an optional sign and
      at least one digit. */
  predicate IsOptionalExponent(s: string, i: nat)
    requires i <= |s|
  {
    i == |s| ||
    (&& (s[i] == 'e' || s[i] == 'E')
     && var j := if i + 1 < |s| && (s[i + 1] == '+' || s[i + 1] == '-') then i + 2 else i + 1;
        var k := DigitsEnd(s, j);
        k > j && k == |s|)
  }

  /** StrUnsignedDecimalLiteral: `Infinity`, `12`, `12.`, `12.5`, `.5`,
      each digit form with an optional exponent. */
  predicate IsUnsignedDecimal(s: string) {
    s == "Infinity" ||
    var a := DigitsEnd(s, 0);
    if a < |s| && s[a] == '.' then
      var b := DigitsEnd(s, a + 1);
      (a > 0 || b > a + 1) && IsOptionalExponent(s, b)
    else
      a > 0 && IsOptionalExponent(s, a)
  }

  /** StrDecimalLiteral: an unsigned literal with an optional sign. */
  predicate IsStrDecimal(s: string) {
    if s != [] && (s[0] == '+' || s[0] == '-') then IsUnsignedDecimal(s[1..])
    else IsUnsignedDecimal(s)
  }

  /** NonDecimalIntegerLiteral without separators: `0x..`, `0o..`, `0b..`. */
  predicate IsNonDecimalInteger(s: string) {
    && |s| > 2 && s[0] == '0'
    && (|| ((s[1] == 'x' || s[1] == 'X') && forall j :: 2 <= j < |s| ==> IsHexDigit(s[j]))
        || ((s[1] == 'o' || s[1] == 'O') && forall j :: 2 <= j < |s| ==> IsOctalDigit(s[j]))
        || ((s[1] == 'b' || s[1] == 'B') && forall j :: 2 <= j < |s| ==> IsBinaryDigit(s[j])))
  }

  /** StringNumericLiteral: white space alone (which converts to 0), or a
      decimal or non-decimal literal surrounded by optional white space.
      Every other string converts to NaN. */
  predicate IsNumericString(s: string) {
    var t := Trim(s);
    t == [] || IsStrDecimal(t) || IsNonDecimalInteger(t)
  }

  /** `isNaN(x)` of ToString(x): what `isNaN` answers for an array whose
      only element is `x` (an array converts through its joined text). */
  predicate TextIsNaN(x: JsValue)
  {
    match x
    case Undefined => false     // joined as ""
    case Null => false          // joined as ""
    case Bool(_) => true        // "true" / "false"
    case Num(n) => n.NaN?       // "NaN", or digits, or "Infinity"
    case Str(s) => !IsNumericString(s)
    case Arr(items) => ArrayIsNaN(items)
    case Obj(_) => true         // "[object Object]"
  }

  /** `isNaN` of an array: its text is the elements joined by ",". The
      empty array is "" (0); an array of two or more elements always holds
      a comma, which no numeric string contains (`CommaIsNeverNumeric`). */
  predicate ArrayIsNaN(items: seq<JsValue>)
  {
    if |items| == 0 then false
    else if |items| == 1 then TextIsNaN(items[0])
    else true
  }

  /** The global `isNaN(x)`, that is, whether ToNumber(x) is NaN. Objects
      of a JSON body convert through their text "[object Object]". */
  predicate IsNaN(v: JsValue)
  {
    match v
    case Undefined => true
    case Null => false
    case Bool(_) => false
    case Num(n) => n.NaN?
    case Str(s) => !IsNumericString(s)
    case Arr(items) => ArrayIsNaN(items)
    case Obj(_) => true
  }

  /** Every character a numeric literal can be built from. */
  predicate IsLiteralChar(c: char) {
    || IsHexDigit(c) || c == '.' || c == '+' || c == '-'
    || c == 'x' || c == 'X' || c == 'o' || c == 'O' || c == 'b' || c == 'B'
    || c in "Infinity" || c == 'E'
  }

  /** An unsigned decimal literal is made of literal characters only. */
  lemma UnsignedDecimalChars(s: string)
    requires IsUnsignedDecimal(s)
    ensures forall j :: 0 <= j < |s| ==> IsLiteralChar(s[j])
  {
  }

  /** A numeric string holds nothing but literal characters and white
      space, so in particular no comma. */
  lemma {:induction false} NumericStringChars(s: string)
    requires IsNumericString(s)
    ensures forall c :: c in Trim(s) ==> IsLiteralChar(c)
  {
    var t := Trim(s);
    if t != [] {
      if IsStrDecimal(t) {
        if t[0] == '+' || t[0] == '-' {
          UnsignedDecimalChars(t[1..]);
          assert forall j :: 0 <= j < |t| ==> IsLiteralChar(t[j]) by {
            forall j | 0 <= j < |t| ensures IsLiteralChar(t[j]) {
              if j > 0 { assert t[j] == t[1..][j - 1]; }
            }
          }
        } else {
          UnsignedDecimalChars(t);
        }
      } else {
        forall j | 0 <= j < |t| ensures IsLiteralChar(t[j]) {
          if j >= 2 { assert IsHexDigit(t[j]) || IsOctalDigit(t[j]) || IsBinaryDigit(t[j]); }
        }
      }
    }
  }

  /** No string that holds a comma converts to a number: this is why an
      array of two or more elements is NaN whatever its elements are. */
  lemma CommaIsNeverNumeric(s: string)
    requires ',' in s
    ensures !IsNumericString(s)
  {
    if IsNumericString(s) {
      NumericStringChars(s);
      assert !IsLiteralChar(',');
      // a comma outside the trimmed text would have to be white space
      TrimDropsOnlyWhiteSpace(s, ',');
    }
  }

  /** A character of `s` that is missing from `Trim(s)` is white space. */
  lemma {:induction false} TrimDropsOnlyWhiteSpace(s: string, c: char)
    requires c in s && c !in Trim(s)
    ensures IsStrWhiteSpace(c)
    decreases |s|
  {
    if s == [] {
    } else if IsStrWhiteSpace(s[0]) {
      if c != s[0] {
        assert c in s[1..];
        TrimDropsOnlyWhiteSpace(s[1..], c);
      }
    } else if IsStrWhiteSpace(s[|s| - 1]) {
      if c != s[|s| - 1] {
        assert s == s[..|s| - 1] + [s[|s| - 1]];
        assert c in s[..|s| - 1];
        TrimDropsOnlyWhiteSpace(s[..|s| - 1], c);
      }
    }
  }
}

=== FILE: location.dfy ===
/** The geofence of `location.js`: a service built once from the allowed
    locations and one radius, admitting a point when no location is
    configured or when the point lies within the radius of at least one
    allowed location. The great-circle distance is a parameter `dist`
    (latitude, longitude of the point, then of the allowed location). */
module Location {

  import opened Wrappers
  import opened JsValues

  /** One entry of the allowed-locations list. Its coordinates are kept
      as the configuration gave them; `dist` decides what they mean. */
  datatype AllowedLocation = AllowedLocation(latitude: JsValue, longitude: JsValue)

  datatype LocationService = LocationService(allowedLocations: seq<AllowedLocation>, locationRadius: JsNumber)

  /** The distance function: point latitude, point longitude, location
      latitude, location longitude, to meters (NaN when it cannot be
      computed). */
  type Distance = (JsValue, JsValue, JsValue, JsValue) -> JsNumber

  /** The radius used when `LOCATION_RADIUS` is unset or empty. */
  const DefaultRadius: JsNumber := Finite(100.0)

  /** The constructor. `radiusSetting` is `LOCATION_RADIUS` already
      converted to a number, `None` when the variable is unset or empty. */
  function NewLocationService(allowed: seq<AllowedLocation>, radiusSetting: Option<JsNumber>): (svc: LocationService)
    ensures svc.allowedLocations == allowed
    ensures radiusSetting.None? ==> svc.locationRadius == DefaultRadius
    ensures radiusSetting.Some? ==> svc.locationRadius == radiusSetting.value
  {
    var radius := match radiusSetting
      case Some(r) => r
      case None => DefaultRadius;
    LocationService(allowed, radius)
  }

  /** The point is within the service's one radius of `loc`; the bound is
      inclusive. */
  predicate Within(svc: LocationService, dist: Distance, latitude: JsValue, longitude: JsValue, loc: AllowedLocation)
  {
    LessOrEqual(dist(latitude, longitude, loc.latitude, loc.longitude), svc.locationRadius)
  }

  /** The admission rule: no configured location admits everything,
      otherwise some allowed location must be within the radius. */
  ghost predicate Admits(svc: LocationService, dist: Distance, latitude: JsValue, longitude: JsValue)
  {
    || |svc.allowedLocations| == 0
    || exists i :: 0 <= i < |svc.allowedLocations| && Within(svc, dist, latitude, longitude, svc.allowedLocations[i])
  }

  /** `validateLocation`: scans the allowed locations in order and stops
      at the first one within the radius. */
  method ValidateLocation(svc: LocationService, dist: Distance, latitude: JsValue, longitude: JsValue) returns (ok: bool)
    ensures |svc.allowedLocations| == 0 ==> ok
    ensures ok <==> Admits(svc, dist, latitude, longitude)
  {
    if |svc.allowedLocations| == 0 {
      return true;
    }
    var i := 0;
    while i < |svc.allowedLocations|
      invariant 0 <= i <= |svc.allowedLocations|
      invariant forall j :: 0 <= j < i ==> !Within(svc, dist, latitude, longitude, svc.allowedLocations[j])
    {
      var loc := svc.allowedLocations[i];
      var distance := dist(latitude, longitude, loc.latitude, loc.longitude);
      if LessOrEqual(distance, svc.locationRadius) {
        return true;
      }
      i := i + 1;
    }
    return false;
  }

  /** The verdict does not depend on the order of the allowed locations:
      any rearrangement of the list admits exactly the same points. */
  lemma AdmissionIgnoresOrder(svc: LocationService, svc': LocationService, dist: Distance, latitude: JsValue, longitude: JsValue)
    requires multiset(svc.allowedLocations) == multiset(svc'.allowedLocations)
    requires svc.locationRadius == svc'.locationRadius
    ensures Admits(svc, dist, latitude, longitude) <==> Admits(svc', dist, latitude, longitude)
  {
    OneWay(svc, svc', dist, latitude, longitude);
    OneWay(svc', svc, dist, latitude, longitude);
  }

  lemma OneWay(svc: LocationService, svc': LocationService, dist: Distance, latitude: JsValue, longitude: JsValue)
    requires multiset(svc.allowedLocations) == multiset(svc'.allowedLocations)
    requires svc.locationRadius == svc'.locationRadius
    ensures Admits(svc, dist, latitude, longitude) ==> Admits(svc', dist, latitude, longitude)
  {
    var a, b := svc.allowedLocations, svc'.allowedLocations;
    assert |a| == |multiset(a)| == |multiset(b)| == |b|;
    if |a| > 0 && Admits(svc, dist, latitude, longitude) {
      var i :| 0 <= i < |a| && Within(svc, dist, latitude, longitude, a[i]);
      assert a[i] in multiset(b);
      var j :| 0 <= j < |b| && b[j] == a[i];
      assert Within(svc', dist, latitude, longitude, b[j]);
    }
  }

  /** A service built without `LOCATION_RADIUS` admits a point exactly
      when no location is configured or the point is at most 100 meters
      from one of the configured locations: the one default radius is
      applied to every location. */
  lemma {:induction false} DefaultServiceAdmission(allowed: seq<AllowedLocation>, dist: Distance, latitude: JsValue, longitude: JsValue)
    ensures Admits(NewLocationService(allowed, None), dist, latitude, longitude) <==>
              || |allowed| == 0
              || exists i :: 0 <= i < |allowed| &&
                   LessOrEqual(dist(latitude, longitude, allowed[i].latitude, allowed[i].longitude), DefaultRadius)
  {
    var svc := NewLocationService(allowed, None);
    assert svc.allowedLocations == allowed && svc.locationRadius == DefaultRadius;
    forall i | 0 <= i < |allowed|
      ensures Within(svc, dist, latitude, longitude, allowed[i]) <==>
                LessOrEqual(dist(latitude, longitude, allowed[i].latitude, allowed[i].longitude), DefaultRadius)
    {
    }
  }

  /** A point at exactly the radius from an allowed location is admitted. */
  lemma BoundaryIsAdmitted(svc: LocationService, dist: Distance, latitude: JsValue, longitude: JsValue, i: nat)
    requires i < |svc.allowedLocations|
    requires svc.locationRadius.Finite?
    requires dist(latitude, longitude, svc.allowedLocations[i].latitude, svc.allowedLocations[i].longitude) == svc.locationRadius
    ensures Admits(svc, dist, latitude, longitude)
  {
  }

  /** Widening the one radius never rejects a point that was admitted. */
  lemma WiderRadiusAdmitsMore(svc: LocationService, r: JsNumber, dist: Distance, latitude: JsValue, longitude: JsValue)
    requires LessOrEqual(svc.locationRadius, r)
    requires Admits(svc, dist, latitude, longitude)
    ensures Admits(svc.(locationRadius := r), dist, latitude, longitude)
  {
  }

  /** A radius that is NaN admits nothing once a location is configured. */
  lemma NaNNeverAdmits(svc: LocationService, dist: Distance, latitude: JsValue, longitude: JsValue)
    requires |svc.allowedLocations| > 0
    requires svc.locationRadius.NaN?
    ensures !Admits(svc, dist, latitude, longitude)
  {
  }

  /** A point whose distance to every configured location cannot be
      computed (NaN) is not admitted, whatever the radius. */
  lemma NaNDistanceNeverAdmits(svc: LocationService, dist: Distance, latitude: JsValue, longitude: JsValue)
    requires |svc.allowedLocations| > 0
    requires forall i :: 0 <= i < |svc.allowedLocations| ==>
               dist(latitude, longitude, svc.allowedLocations[i].latitude, svc.allowedLocations[i].longitude).NaN?
    ensures !Admits(svc, dist, latitude, longitude)
  {
  }

  /** What `getLocationInfo` returns: the coordinates it was given and
      the time of the call. */
  datatype LocationInfo = LocationInfo(latitude: JsValue, longitude: JsValue, timestamp: string)

  /** `getLocationInfo`: echoes the coordinates unchanged, stamped with
      `now` (the ISO-8601 text of the current time). */
  function GetLocationInfo(latitude: JsValue, longitude: JsValue, now: string): (info: LocationInfo)
    ensures info.latitude == latitude && info.longitude == longitude
    ensures info.timestamp == now
  {
    LocationInfo(latitude, longitude, now)
  }
}

=== FILE: middleware.dfy ===
/** The request checks of `lib/middleware.js` that run before the
    clock-in and clock-out handlers. Each answers 400 with a message or
    passes the request on (`next()`). */
module Middleware {

  import opened Wrappers
  import opened JsValues

  /** The fields the checks read from the JSON body (`undefined` when
      absent). */
  datatype ClockBody = ClockBody(employeeId: JsValue, latitude: JsValue, longitude: JsValue, notes: JsValue)

  /** The outcome of a check: a 400 answer, or the call to `next()`. */
  datatype Gate = Reject(message: string) | Next

  const MissingEmployeeId := "Employee ID is required"
  const MissingCoordinates := "Location coordinates are required"
  const InvalidCoordinates := "Invalid location coordinates"

  /** `VALIDATE_LOCATION === "true"`: any other setting, unset included,
      turns location checks off. */
  predicate LocationValidationEnabled(validateLocation: Option<string>) {
    validateLocation == Some("true")
  }

  /** `validateClockIn`. */
  function ValidateClockIn(body: ClockBody, validateLocation: Option<string>): (g: Gate)
    ensures !Truthy(body.employeeId) ==> g == Reject(MissingEmployeeId)
    ensures Truthy(body.employeeId) && !LocationValidationEnabled(validateLocation) ==> g == Next
    ensures (&& Truthy(body.employeeId) && LocationValidationEnabled(validateLocation)
             && (!Truthy(body.latitude) || !Truthy(body.longitude)))
            ==> g == Reject(MissingCoordinates)
    ensures (&& Truthy(body.employeeId) && LocationValidationEnabled(validateLocation)
             && Truthy(body.latitude) && Truthy(body.longitude)
             && (IsNaN(body.latitude) || IsNaN(body.longitude)))
            ==> g == Reject(InvalidCoordinates)
    ensures g == Next <==> Truthy(body.employeeId) && (LocationValidationEnabled(validateLocation) ==>
              Truthy(body.latitude) && Truthy(body.longitude) && !IsNaN(body.latitude) && !IsNaN(body.longitude))
  {
    if !Truthy(body.employeeId) then Reject(MissingEmployeeId)
    else if LocationValidationEnabled(validateLocation) && (!Truthy(body.latitude) || !Truthy(body.longitude)) then
      Reject(MissingCoordinates)
    else if LocationValidationEnabled(validateLocation) && (IsNaN(body.latitude) || IsNaN(body.longitude)) then
      Reject(InvalidCoordinates)
    else Next
  }

  /** `validateClockOut`: written out separately in the source, statement
      for statement the same as `validateClockIn`. */
  function ValidateClockOut(body: ClockBody, validateLocation: Option<string>): (g: Gate)
    ensures g == ValidateClockIn(body, validateLocation)
  {
    if !Truthy(body.employeeId) then Reject(MissingEmployeeId)
    else if LocationValidationEnabled(validateLocation) && (!Truthy(body.latitude) || !Truthy(body.longitude)) then
      Reject(MissingCoordinates)
    else if LocationValidationEnabled(validateLocation) && (IsNaN(body.latitude) || IsNaN(body.longitude)) then
      Reject(InvalidCoordinates)
    else Next
  }

  /** A coordinate of `0` counts as missing, not as the equator or the
      prime meridian. */
  lemma ZeroCoordinateIsMissing(body: ClockBody)
    requires Truthy(body.employeeId)
    requires body.latitude == Num(Finite(0.0)) || body.longitude == Num(Finite(0.0))
    ensures ValidateClockIn(body, Some("true")) == Reject(MissingCoordinates)
  {
  }

  /** With location checks off, the coordinates are never looked at: two
      bodies with the same employee id get the same outcome. */
  lemma CoordinatesIgnoredWhenDisabled(body: ClockBody, body': ClockBody, validateLocation: Option<string>)
    requires !LocationValidationEnabled(validateLocation)
    requires body.employeeId == body'.employeeId
    ensures ValidateClockIn(body, validateLocation) == ValidateClockIn(body', validateLocation)
  {
  }

  /** Numeric text passes: a truthy id with two non-empty numeric strings
      is let through even when location checks are on. */
  lemma NumericTextPasses(body: ClockBody, lat: string, lon: string)
    requires Truthy(body.employeeId)
    requires body.latitude == Str(lat) && body.longitude == Str(lon)
    requires lat != "" && lon != "" && IsNumericString(lat) && IsNumericString(lon)
    ensures ValidateClockIn(body, Some("true")) == Next
  {
  }

  /** `isNaN` lets through coordinates that are not numbers at all: the
      boolean `true` and a one-element array holding a number pass the
      checks when location validation is on. */
  lemma NonNumbersPass(id: string)
    requires id != ""
    ensures ValidateClockIn(ClockBody(Str(id), Bool(true), Bool(true), Undefined), Some("true")) == Next
    ensures ValidateClockIn(ClockBody(Str(id), Arr([Num(Finite(1.5))]), Arr([Str("2")]), Undefined), Some("true")) == Next
  {
  }

  /** A list of two coordinates is rejected as invalid, whatever it holds. */
  lemma CoordinatePairRejected(body: ClockBody, a: JsValue, b: JsValue)
    requires Truthy(body.employeeId) && Truthy(body.longitude)
    requires body.latitude == Arr([a, b])
    ensures ValidateClockIn(body, Some("true")) == Reject(InvalidCoordinates)
  {
  }
}

=== FILE: pipeline.dfy ===
/** The routes of `lib/routes.js`: which handlers the router mounts, and
    what a clock-in or clock-out request is answered once the middleware
    check has run.

    The file passes the controller's methods to the router without their
    object (`talentaController.clockIn`, not a bound function), so inside
    the handler `this` is `undefined`, and it names two handlers the
    controller does not define. Both are modelled as written
    (`RouteAsWired`, `RoutesAsWritten`) next to the evidently intended
    wiring (`RouteBound`, `Route`, `RoutesIntended`). */
module Pipeline {

  import opened Wrappers
  import opened JsValues
  import Location
  import opened Middleware
  import opened TalentaController

  // ---------------------------------------------------------------------
  // Mounting the routes
  // ---------------------------------------------------------------------

  /** One `router.get`/`router.post` call: the method name, the path and
      whether the last handler passed is a function (`false` when it is
      `undefined`). */
  datatype RouteEntry = RouteEntry(verb: string, path: string, hasHandler: bool)

  /** The error Express throws when a route is given `undefined` as its
      handler. */
  function CallbackError(e: RouteEntry): string {
    "Route." + e.verb + "() requires a callback function but got a [object Undefined]"
  }

  /** Registers the routes in order: the first one without a handler
      throws, which aborts loading the module; otherwise every route is
      mounted, as its method and path. */
  function MountRoutes(entries: seq<RouteEntry>): (r: Result<seq<(string, string)>>)
    ensures r.Ok? <==> forall i :: 0 <= i < |entries| ==> entries[i].hasHandler
    ensures r.Ok? ==> (|r.value| == |entries| &&
              forall i :: 0 <= i < |entries| ==> r.value[i] == (entries[i].verb, entries[i].path))
    ensures r.Thrown? ==> exists i :: 0 <= i < |entries| && !entries[i].hasHandler && r.message == CallbackError(entries[i])
  {
    if entries == [] then Ok([])
    else if !entries[0].hasHandler then Thrown(CallbackError(entries[0]))
    else match MountRoutes(entries[1..])
      case Ok(rest) => Ok([(entries[0].verb, entries[0].path)] + rest)
      case Thrown(e) => Thrown(e)
  }

  /** The error names the first route without a handler: the routes
      before it are registered, and loading stops there. */
  lemma {:induction false} FirstMissingHandlerThrows(entries: seq<RouteEntry>, k: nat)
    requires k < |entries| && !entries[k].hasHandler
    requires forall i :: 0 <= i < k ==> entries[i].hasHandler
    ensures MountRoutes(entries) == Thrown(CallbackError(entries[k]))
  {
    if k > 0 {
      FirstMissingHandlerThrows(entries[1..], k - 1);
    }
  }

  /** The six routes of `lib/routes.js`; `bulkClockIn` and `bulkClockOut`
      do not exist on the controller, so their handlers are `undefined`. */
  const RoutesAsWritten := [
    RouteEntry("post", "/clockin", true),
    RouteEntry("post", "/clockout", true),
    RouteEntry("get", "/attendance/:employeeId", true),
    RouteEntry("get", "/attendance/:employeeId/summary", true),
    RouteEntry("post", "/bulk/clockin", false),
    RouteEntry("post", "/bulk/clockout", false)
  ]

  /** The routes whose handlers exist. */
  const RoutesIntended := RoutesAsWritten[..4]

  /** As written, loading the routes throws at `POST /bulk/clockin`, so no
      route is ever mounted. */
  lemma WrittenRoutesThrowOnLoad()
    ensures MountRoutes(RoutesAsWritten) == Thrown(CallbackError(RouteEntry("post", "/bulk/clockin", false)))
  {
    FirstMissingHandlerThrows(RoutesAsWritten, 4);
  }

  /** Without the two missing handlers, the four defined routes mount. */
  lemma IntendedRoutesMount()
    ensures MountRoutes(RoutesIntended) ==
              Ok([("post", "/clockin"), ("post", "/clockout"),
                  ("get", "/attendance/:employeeId"), ("get", "/attendance/:employeeId/summary")])
  {
    var rs := RoutesIntended;
    assert rs[0].hasHandler && rs[1].hasHandler && rs[2].hasHandler && rs[3].hasHandler;
    var mounted := MountRoutes(rs).value;
    assert mounted[0] == ("post", "/clockin") && mounted[1] == ("post", "/clockout");
    assert mounted[2] == ("get", "/attendance/:employeeId") && mounted[3] == ("get", "/attendance/:employeeId/summary");
    assert |mounted| == 4;
    assert mounted == [("post", "/clockin"), ("post", "/clockout"),
                       ("get", "/attendance/:employeeId"), ("get", "/attendance/:employeeId/summary")];
  }

  // ---------------------------------------------------------------------
  // Answering a clock request
  // ---------------------------------------------------------------------

  /** The middleware of the route: `validateClockIn` or `validateClockOut`. */
  function RunMiddleware(action: Action, body: ClockBody, validateLocation: Option<string>): (g: Gate)
    ensures g == ValidateClockIn(body, validateLocation)
  {
    match action
    case ClockInAction => ValidateClockIn(body, validateLocation)
    case ClockOutAction => ValidateClockOut(body, validateLocation)
  }

  /** Once the middleware has let a request through, the handler's own
      missing-id and missing-coordinates answers cannot occur. */
  lemma MiddlewareCoversHandlerChecks(action: Action, req: ClockRequest, env: Env, timestamp: string, verdict: Result<bool>)
    requires ValidateClockIn(req.body, env.validateLocation) == Next
    ensures DecideClock(action, req, env, timestamp, verdict) != Status400(MissingEmployeeId)
    ensures DecideClock(action, req, env, timestamp, verdict) != Status400(CoordinatesRequiredMessage)
  {
  }

  /** The middleware, then the handler called on the controller object. */
  function RouteBound(action: Action, req: ClockRequest, env: Env, timestamp: string, verdict: Result<bool>,
                      upstream: ApiConfig -> UpstreamResult): (r: Response)
    ensures ValidateClockIn(req.body, env.validateLocation).Reject? ==>
              r == Status400(ValidateClockIn(req.body, env.validateLocation).message)
    ensures !r.CallUpstream?
    ensures r.Ok200? || r.MockOk? ==> ValidateClockIn(req.body, env.validateLocation).Next? && PassesClockChecks(req, env, verdict)
    // once the middleware calls `next()`, the handler's answer is the route's
    ensures ValidateClockIn(req.body, env.validateLocation).Next? ==>
              r == HandleClock(action, req, env, timestamp, verdict, upstream)
  {
    var gate := RunMiddleware(action, req.body, env.validateLocation);
    if gate.Reject? then Status400(gate.message)
    else HandleClock(action, req, env, timestamp, verdict, upstream)
  }

  /** Bound to the controller, a request that passes both checks is
      answered with the mock data when there is no key. */
  lemma BoundRouteMocksWithoutKey(action: Action, req: ClockRequest, env: Env, timestamp: string, verdict: Result<bool>,
                                  upstream: ApiConfig -> UpstreamResult)
    requires ValidateClockIn(req.body, env.validateLocation).Next? && PassesClockChecks(req, env, verdict)
    requires !HasApiKey(env)
    ensures RouteBound(action, req, env, timestamp, verdict, upstream) ==
              MockOk(MockMessage(action), Obj(MockClockData(action, req, timestamp)))
  {
    var decided := DecideClock(action, req, env, timestamp, verdict);
    assert decided == MockOk(MockMessage(action), Obj(MockClockData(action, req, timestamp)));
    assert HandleClock(action, req, env, timestamp, verdict, upstream) == decided;
  }

  /** Bound to the controller, a request the middleware passes is
      rejected with "Invalid location for clock in/out" when location
      validation is on and the geofence refuses it; when the geofence
      admits it (or validation is off) and a key is set, the answer is
      built from the provider's reply to the POST of the payload. */
  lemma BoundRouteAnswers(action: Action, req: ClockRequest, env: Env, timestamp: string, admitted: bool,
                          upstream: ApiConfig -> UpstreamResult)
    requires ValidateClockIn(req.body, env.validateLocation).Next?
    ensures LocationValidationEnabled(env.validateLocation) && !admitted ==>
              RouteBound(action, req, env, timestamp, Ok(admitted), upstream) == Status400(InvalidLocationMessage(action))
    ensures (!LocationValidationEnabled(env.validateLocation) || admitted) && HasApiKey(env) ==>
              RouteBound(action, req, env, timestamp, Ok(admitted), upstream) ==
                FinishClock(action, req, env, timestamp, upstream(ClockCall(action, req, env, timestamp)))
  {
    var decided := DecideClock(action, req, env, timestamp, Ok(admitted));
    if (!LocationValidationEnabled(env.validateLocation) || admitted) && HasApiKey(env) {
      assert PassesClockChecks(req, env, Ok(admitted));
      assert decided == CallUpstream(ClockCall(action, req, env, timestamp));
    }
  }

  /** The provider call of a clock request: a POST of the snake_case
      payload to the action's endpoint. */
  function ClockCall(action: Action, req: ClockRequest, env: Env, timestamp: string): ApiConfig {
    ApiConfig("POST", BaseUrl(env) + Endpoint(action), Some(Obj(ClockPayload(action, req, timestamp))), None)
  }

  /** The message of the `TypeError` thrown by reading a property of
      `undefined` (V8's wording), here `this.apiKey`. */
  const UnboundThisMessage := "Cannot read properties of undefined (reading 'apiKey')"

  /** A controller method run with `this` undefined: the answers given
      before the first `this.apiKey` read (the 400s and a failing
      geofence) are unchanged; from that read on, the `catch` answers. */
  function Unbound(failure: string, env: Env, decided: Response): (r: Response)
    ensures !r.Ok200? && !r.MockOk? && !r.CallUpstream?
  {
    match decided
    case Status400(_) => decided
    case Error500(_, _) => decided
    case _ => Caught(failure, env, UnboundThisMessage)
  }

  /** The middleware, then the handler as `lib/routes.js` passes it: a
      detached method, never reaching the mock answer or the provider. */
  function RouteAsWired(action: Action, req: ClockRequest, env: Env, timestamp: string, verdict: Result<bool>): (r: Response)
    ensures ValidateClockIn(req.body, env.validateLocation).Reject? ==>
              r == Status400(ValidateClockIn(req.body, env.validateLocation).message)
    ensures r.Status400? || r.Error500?
    ensures ValidateClockIn(req.body, env.validateLocation).Next? && PassesClockChecks(req, env, verdict) ==>
              r == Error500(FailureMessage(action), ErrorDetail(env, UnboundThisMessage))
  {
    var gate := RunMiddleware(action, req.body, env.validateLocation);
    if gate.Reject? then Status400(gate.message)
    else Unbound(FailureMessage(action), env, DecideClock(action, req, env, timestamp, verdict))
  }

  /** The detached handler gives the same 400 answers as the bound one;
      every other request, whatever the key and the provider, fails with
      the handler's 500 answer. */
  lemma WiredRouteFailsPastChecks(action: Action, req: ClockRequest, env: Env, timestamp: string, verdict: Result<bool>,
                                  upstream: ApiConfig -> UpstreamResult)
    ensures RouteBound(action, req, env, timestamp, verdict, upstream).Status400? ==>
              RouteAsWired(action, req, env, timestamp, verdict) == RouteBound(action, req, env, timestamp, verdict, upstream)
    ensures !RouteBound(action, req, env, timestamp, verdict, upstream).Status400? ==>
              && RouteAsWired(action, req, env, timestamp, verdict).Error500?
              && RouteAsWired(action, req, env, timestamp, verdict).message == FailureMessage(action)
  {
    var decided := DecideClock(action, req, env, timestamp, verdict);
    if ValidateClockIn(req.body, env.validateLocation).Next? && !decided.Status400? && !decided.Error500? {
      assert !HandleClock(action, req, env, timestamp, verdict, upstream).Status400?;
    }
  }

  /** The concrete case: a clock-in with only an employee id, location
      validation off and no key. Bound, it is the mock answer; as wired,
      it is "Clock in failed". */
  lemma DetachedClockInFails(timestamp: string, upstream: ApiConfig -> UpstreamResult)
    ensures var req := ClockRequest(ClockBody(Str("E1"), Undefined, Undefined, Undefined), None, None, None);
      var env := Env(None, None, None, None);
      && RouteAsWired(ClockInAction, req, env, timestamp, Ok(true)) == Error500("Clock in failed", "Internal server error")
      && RouteBound(ClockInAction, req, env, timestamp, Ok(true), upstream).MockOk?
  {
  }

  /** `POST /clockin` or `POST /clockout` with the handler bound to the
      controller: the middleware, the geofence of the configured location
      service, then the handler. The geofence is consulted only when
      location validation is on and both coordinates are present, as in
      the handler. */
  method Route(action: Action, req: ClockRequest, env: Env, timestamp: string,
               svc: Location.LocationService, dist: Location.Distance,
               upstream: ApiConfig -> UpstreamResult) returns (r: Response)
    ensures ValidateClockIn(req.body, env.validateLocation).Reject? ==>
              r == Status400(ValidateClockIn(req.body, env.validateLocation).message)
    ensures r != Status400(CoordinatesRequiredMessage)
    ensures !r.CallUpstream?
    ensures r.Ok200? || r.MockOk? ==>
              && Truthy(req.body.employeeId)
              && (LocationValidationEnabled(env.validateLocation) ==>
                    && !IsNaN(req.body.latitude) && !IsNaN(req.body.longitude)
                    && Location.Admits(svc, dist, req.body.latitude, req.body.longitude))
    // with validation off, a request with an id is answered with mock data when there is no key
    ensures Truthy(req.body.employeeId) && !LocationValidationEnabled(env.validateLocation) && !HasApiKey(env) ==>
              r == MockOk(MockMessage(action), Obj(MockClockData(action, req, timestamp)))
    // with validation on, the geofence decides between the invalid-location answer and service
    ensures (&& ValidateClockIn(req.body, env.validateLocation).Next? && LocationValidationEnabled(env.validateLocation)
             && !Location.Admits(svc, dist, req.body.latitude, req.body.longitude)) ==>
              r == Status400(InvalidLocationMessage(action))
    ensures (&& ValidateClockIn(req.body, env.validateLocation).Next? && LocationValidationEnabled(env.validateLocation)
             && Location.Admits(svc, dist, req.body.latitude, req.body.longitude) && !HasApiKey(env)) ==>
              r == MockOk(MockMessage(action), Obj(MockClockData(action, req, timestamp)))
    // a served request with a key is answered from the provider's reply
    ensures (&& ValidateClockIn(req.body, env.validateLocation).Next? && HasApiKey(env)
             && (LocationValidationEnabled(env.validateLocation) ==> Location.Admits(svc, dist, req.body.latitude, req.body.longitude))) ==>
              r == FinishClock(action, req, env, timestamp, upstream(ClockCall(action, req, env, timestamp)))
    // with a loaded location service, a 500 can only come from the provider call
    ensures r.Ok200? || r.Error500? ==> HasApiKey(env)
  {
    var verdict := Ok(true);
    if LocationValidationEnabled(env.validateLocation) && Truthy(req.body.latitude) && Truthy(req.body.longitude) {
      var admitted := Location.ValidateLocation(svc, dist, req.body.latitude, req.body.longitude);
      verdict := Ok(admitted);
    }
    ghost var served := !LocationValidationEnabled(env.validateLocation) || Location.Admits(svc, dist, req.body.latitude, req.body.longitude);
    ghost var passed := ValidateClockIn(req.body, env.validateLocation).Next?;
    assert passed ==> verdict == Ok(served);
    r := RouteBound(action, req, env, timestamp, verdict, upstream);
    assert r != Status400(CoordinatesRequiredMessage) by {
      if passed {
        MiddlewareCoversHandlerChecks(action, req, env, timestamp, verdict);
      }
    }
    assert passed && !served ==> r == Status400(InvalidLocationMessage(action)) by {
      if passed && !served {
        BoundRouteAnswers(action, req, env, timestamp, served, upstream);
      }
    }
    assert passed && served && HasApiKey(env) ==>
             r == FinishClock(action, req, env, timestamp, upstream(ClockCall(action, req, env, timestamp))) by {
      if passed && served && HasApiKey(env) {
        BoundRouteAnswers(action, req, env, timestamp, served, upstream);
      }
    }
    assert passed && served && !HasApiKey(env) ==>
             r == MockOk(MockMessage(action), Obj(MockClockData(action, req, timestamp))) by {
      if passed && served && !HasApiKey(env) {
        BoundRouteMocksWithoutKey(action, req, env, timestamp, verdict, upstream);
      }
    }
  }
}

=== FILE: talenta_controller.dfy ===
/** The request handlers of `lib/talenta-controller.js`. Each handler is
    one pass: check the request, optionally consult the geofence, build
    the snake_case payload for the attendance provider, then either answer
    with mock data (no API key) or decide to call the provider. The call
    itself is I/O: a handler is split into `Decide…`, which ends in
    `CallUpstream(config)` when the provider is to be called, and
    `Finish…`, which shapes the provider's answer or error; the complete
    handlers take the provider as a function from request config to
    outcome. The clock, the environment and the geofence verdict are
    parameters. */
module TalentaController {

  import opened Wrappers
  import opened JsValues
  import opened JsObjects
  import opened Middleware

  /** The environment variables the controller reads. */
  datatype Env = Env(
    validateLocation: Option<string>,   // VALIDATE_LOCATION
    nodeEnv: Option<string>,            // NODE_ENV
    apiKey: Option<string>,             // TALENTA_API_KEY
    baseUrl: Option<string>)            // TALENTA_BASE_URL

  /** The clock reads of a read request: today's date and the first and
      last day of the month (`YYYY-MM-DD`), and the month (1 to 12) and
      year. The clock handlers take the ISO-8601 time as `timestamp`. */
  datatype Clock = Clock(today: string, monthStart: string, monthEnd: string, month: Month, year: nat)

  /** `moment().month() + 1`: a month number from 1 to 12. */
  type Month = m: nat | 1 <= m <= 12 witness 1

  /** A clock-in or clock-out request: the JSON body, the `User-Agent`
      header, `req.ip` and the socket's remote address. */
  datatype ClockRequest = ClockRequest(body: ClockBody, userAgent: Option<string>, ip: Option<string>, remoteAddress: Option<string>)

  /** `GET /attendance/:employeeId?startDate&endDate`. */
  datatype AttendanceQuery = AttendanceQuery(employeeId: string, startDate: Option<string>, endDate: Option<string>)

  /** `GET /attendance/:employeeId/summary?month&year`. */
  datatype SummaryQuery = SummaryQuery(employeeId: string, month: Option<string>, year: Option<string>)

  /** The request config `makeAPICall` hands to the HTTP client. */
  datatype ApiConfig = ApiConfig(verb: string, url: string, data: Option<JsValue>, params: Option<JsValue>)

  /** What the provider call produced: its response body, or the message
      of the error it threw. */
  datatype UpstreamResult = Answered(data: JsValue) | Threw(message: string)

  /** What a handler does with a request. `MockOk` and `Ok200` are 200
      answers (mock data, and the provider's data); `CallUpstream` is the
      decision to call the provider with the given config. */
  datatype Response =
    | Status400(message: string)
    | MockOk(message: string, data: JsValue)
    | CallUpstream(config: ApiConfig)
    | Ok200(headline: Option<string>, data: JsValue)
    | Error500(message: string, error: string)

  datatype Action = ClockInAction | ClockOutAction

  const DefaultBaseUrl := "https://api.talenta.co"
  const MissingKeyMessage := "TALENTA_API_KEY is not configured"
  const CoordinatesRequiredMessage := "Location coordinates are required when location validation is enabled"
  const HiddenError := "Internal server error"

  // ---------------------------------------------------------------------
  // Configuration and the provider client
  // ---------------------------------------------------------------------

  /** The API key is configured (set and not empty). */
  predicate HasApiKey(env: Env) {
    Truthy(FromOption(env.apiKey))
  }

  /** `TALENTA_BASE_URL || "https://api.talenta.co"`. */
  function BaseUrl(env: Env): (url: string)
    ensures env.baseUrl.Some? && env.baseUrl.value != "" ==> url == env.baseUrl.value
    ensures env.baseUrl.None? || env.baseUrl.value == "" ==> url == DefaultBaseUrl
  {
    if Truthy(FromOption(env.baseUrl)) then env.baseUrl.value else DefaultBaseUrl
  }

  /** `makeAPICall(endpoint, method, data, params)`, with the HTTP method as `verb`: throws when there is
      no API key; otherwise the config for the provider URL, carrying
      `data` and `params` only when they are truthy. */
  function MakeApiCall(env: Env, endpoint: string, verb: string, data: JsValue, params: JsValue): (r: Result<ApiConfig>)
    ensures !HasApiKey(env) <==> r == Thrown(MissingKeyMessage)
    ensures r.Ok? <==> HasApiKey(env)
    ensures r.Ok? ==> r.value.verb == verb && r.value.url == BaseUrl(env) + endpoint
    ensures r.Ok? ==> (r.value.data == if Truthy(data) then Some(data) else None)
    ensures r.Ok? ==> (r.value.params == if Truthy(params) then Some(params) else None)
  {
    if !HasApiKey(env) then Thrown(MissingKeyMessage)
    else
      var config := ApiConfig(verb, BaseUrl(env) + endpoint, None, None);
      var config := if Truthy(data) then config.(data := Some(data)) else config;
      var config := if Truthy(params) then config.(params := Some(params)) else config;
      Ok(config)
  }

  /** The `error` field of a 500 answer: the real message only when
      `NODE_ENV` is `development`. */
  function ErrorDetail(env: Env, message: string): (detail: string)
    ensures env.nodeEnv == Some("development") ==> detail == message
    ensures env.nodeEnv != Some("development") ==> detail == HiddenError
  {
    if env.nodeEnv == Some("development") then message else HiddenError
  }

  /** The handler's `catch`: a thrown error becomes a 500 answer. */
  function Caught(failure: string, env: Env, message: string): (r: Response)
    ensures r.Error500? && r.message == failure && r.error == ErrorDetail(env, message)
  {
    Error500(failure, ErrorDetail(env, message))
  }

  /** Calls the provider when the config could be built, and otherwise
      answers as the handler's `catch` does. */
  function Dispatch(failure: string, env: Env, call: Result<ApiConfig>): (r: Response)
    ensures call.Ok? ==> r == CallUpstream(call.value)
    ensures call.Thrown? ==> r == Caught(failure, env, call.message)
  {
    match call
    case Ok(config) => CallUpstream(config)
    case Thrown(e) => Caught(failure, env, e)
  }

  // ---------------------------------------------------------------------
  // Clock in and clock out
  // ---------------------------------------------------------------------

  function Endpoint(action: Action): string {
    match action
    case ClockInAction => "/attendance/clockin"
    case ClockOutAction => "/attendance/clockout"
  }

  /** The payload key of the time: `clock_in_time` / `clock_out_time`. */
  function PayloadTimeKey(action: Action): string {
    match action
    case ClockInAction => "clock_in_time"
    case ClockOutAction => "clock_out_time"
  }

  /** The answer key of the time: `clockInTime` / `clockOutTime`. */
  function DataTimeKey(action: Action): string {
    match action
    case ClockInAction => "clockInTime"
    case ClockOutAction => "clockOutTime"
  }

  function InvalidLocationMessage(action: Action): string {
    match action
    case ClockInAction => "Invalid location for clock in"
    case ClockOutAction => "Invalid location for clock out"
  }

  function MockMessage(action: Action): string {
    match action
    case ClockInAction => "Clock in successful (Mock Mode - Configure TALENTA_API_KEY for real API)"
    case ClockOutAction => "Clock out successful (Mock Mode - Configure TALENTA_API_KEY for real API)"
  }

  function SuccessMessage(action: Action): string {
    match action
    case ClockInAction => "Clock in successful"
    case ClockOutAction => "Clock out successful"
  }

  function FailureMessage(action: Action): string {
    match action
    case ClockInAction => "Clock in failed"
    case ClockOutAction => "Clock out failed"
  }

  /** `latitude && longitude ? { latitude, longitude } : null`. */
  function PayloadLocation(body: ClockBody): JsValue {
    if Truthy(body.latitude) && Truthy(body.longitude) then
      Obj([("latitude", body.latitude), ("longitude", body.longitude)])
    else Null
  }

  /** The snake_case payload sent to the provider. */
  function ClockPayload(action: Action, req: ClockRequest, timestamp: string): Fields {
    [ ("employee_id", req.body.employeeId),
      (PayloadTimeKey(action), Str(timestamp)),
      ("location", PayloadLocation(req.body)),
      ("notes", PayloadNotes(req.body)),
      ("device_info", DeviceInfo(req)),
      ("ip_address", IpAddress(req)) ]
  }

  /** The `data` of the mock answer. */
  function MockClockData(action: Action, req: ClockRequest, timestamp: string): Fields {
    var payload := ClockPayload(action, req, timestamp);
    [ ("employeeId", req.body.employeeId),
      (DataTimeKey(action), Str(timestamp)),
      ("location", Get(payload, "location")),
      ("notes", Get(payload, "notes")),
      ("mock", Bool(true)) ]
  }

  /** The request passed the handler's own checks: a truthy employee id
      and, with location validation on, two truthy coordinates that the
      geofence admitted. */
  predicate PassesClockChecks(req: ClockRequest, env: Env, verdict: Result<bool>) {
    && Truthy(req.body.employeeId)
    && (LocationValidationEnabled(env.validateLocation) ==>
          Truthy(req.body.latitude) && Truthy(req.body.longitude) && verdict == Ok(true))
  }

  /** Everything the clock-in/clock-out handler does up to the provider
      call. `timestamp` is the current time; `verdict` is what
      `validateLocation` returned for the body's coordinates, or the
      message of what it threw. */
  function DecideClock(action: Action, req: ClockRequest, env: Env, timestamp: string, verdict: Result<bool>): (r: Response)
    // the employee id is checked first, whatever the other fields hold
    ensures !Truthy(req.body.employeeId) ==> r == Status400(MissingEmployeeId)
    ensures (&& Truthy(req.body.employeeId) && LocationValidationEnabled(env.validateLocation)
             && (!Truthy(req.body.latitude) || !Truthy(req.body.longitude)))
            ==> r == Status400(CoordinatesRequiredMessage)
    ensures (&& Truthy(req.body.employeeId) && LocationValidationEnabled(env.validateLocation)
             && Truthy(req.body.latitude) && Truthy(req.body.longitude) && verdict == Ok(false))
            ==> r == Status400(InvalidLocationMessage(action))
    // a geofence that throws is answered by the `catch`
    ensures (&& Truthy(req.body.employeeId) && LocationValidationEnabled(env.validateLocation)
             && Truthy(req.body.latitude) && Truthy(req.body.longitude) && verdict.Thrown?)
            ==> r == Caught(FailureMessage(action), env, verdict.message)
    // without the key the answer is mock data; with it, the provider is called
    ensures PassesClockChecks(req, env, verdict) && !HasApiKey(env) ==>
              r == MockOk(MockMessage(action), Obj(MockClockData(action, req, timestamp)))
    ensures r.CallUpstream? <==> PassesClockChecks(req, env, verdict) && HasApiKey(env)
    ensures r.CallUpstream? ==>
              r.config == ApiConfig("POST", BaseUrl(env) + Endpoint(action), Some(Obj(ClockPayload(action, req, timestamp))), None)
    ensures r.Error500? ==> verdict.Thrown? && r.message == FailureMessage(action)
  {
    var body := req.body;
    var checkLocation := LocationValidationEnabled(env.validateLocation);
    if !Truthy(body.employeeId) then Status400(MissingEmployeeId)
    else if checkLocation && (!Truthy(body.latitude) || !Truthy(body.longitude)) then
      Status400(CoordinatesRequiredMessage)
    else if checkLocation && verdict.Thrown? then Caught(FailureMessage(action), env, verdict.message)
    else if checkLocation && !verdict.value then Status400(InvalidLocationMessage(action))
    else if !HasApiKey(env) then MockOk(MockMessage(action), Obj(MockClockData(action, req, timestamp)))
    else Dispatch(FailureMessage(action), env, MakeApiCall(env, Endpoint(action), "POST", Obj(ClockPayload(action, req, timestamp)), Null))
  }

  /** The answer after the provider call: the provider's fields spread
      after `employeeId` and the time, or the `catch` answer. */
  function FinishClock(action: Action, req: ClockRequest, env: Env, timestamp: string, outcome: UpstreamResult): (r: Response)
    ensures outcome.Threw? ==> r == Caught(FailureMessage(action), env, outcome.message)
    ensures outcome.Answered? ==> r.Ok200? && r.headline == Some(SuccessMessage(action)) && r.data.Obj?
  {
    match outcome
    case Answered(data) =>
      var head := [("employeeId", req.body.employeeId), (DataTimeKey(action), Str(timestamp))];
      Ok200(Some(SuccessMessage(action)), Obj(Assign(head, SpreadEntries(data))))
    case Threw(message) => Caught(FailureMessage(action), env, message)
  }

  /** A complete clock-in or clock-out: `upstream` is the provider, called
      at most once and only when `DecideClock` decided to call it. */
  function HandleClock(action: Action, req: ClockRequest, env: Env, timestamp: string, verdict: Result<bool>,
                       upstream: ApiConfig -> UpstreamResult): (r: Response)
    ensures !r.CallUpstream?
    ensures !DecideClock(action, req, env, timestamp, verdict).CallUpstream? ==> r == DecideClock(action, req, env, timestamp, verdict)
    // a decided call is made once, and the answer is built from the provider's reply
    ensures var d := DecideClock(action, req, env, timestamp, verdict);
      d.CallUpstream? ==> r == FinishClock(action, req, env, timestamp, upstream(d.config))
    ensures r.Ok200? ==> PassesClockChecks(req, env, verdict) && HasApiKey(env)
  {
    match DecideClock(action, req, env, timestamp, verdict)
    case CallUpstream(config) => FinishClock(action, req, env, timestamp, upstream(config))
    case other => other
  }

  /** `clockIn`. */
  function ClockIn(req: ClockRequest, env: Env, timestamp: string, verdict: Result<bool>,
                   upstream: ApiConfig -> UpstreamResult): (r: Response)
    ensures !Truthy(req.body.employeeId) ==> r == Status400(MissingEmployeeId)
    ensures r.Ok200? || r.MockOk? ==> PassesClockChecks(req, env, verdict)
    ensures var d := DecideClock(ClockInAction, req, env, timestamp, verdict);
      && (!d.CallUpstream? ==> r == d)
      && (d.CallUpstream? ==> r == FinishClock(ClockInAction, req, env, timestamp, upstream(d.config)))
  {
    HandleClock(ClockInAction, req, env, timestamp, verdict, upstream)
  }

  /** `clockOut`. */
  function ClockOut(req: ClockRequest, env: Env, timestamp: string, verdict: Result<bool>,
                    upstream: ApiConfig -> UpstreamResult): (r: Response)
    ensures !Truthy(req.body.employeeId) ==> r == Status400(MissingEmployeeId)
    ensures r.Ok200? || r.MockOk? ==> PassesClockChecks(req, env, verdict)
    ensures var d := DecideClock(ClockOutAction, req, env, timestamp, verdict);
      && (!d.CallUpstream? ==> r == d)
      && (d.CallUpstream? ==> r == FinishClock(ClockOutAction, req, env, timestamp, upstream(d.config)))
  {
    HandleClock(ClockOutAction, req, env, timestamp, verdict, upstream)
  }

  /** The notes default to "" and the device to "Unknown"; the client
      address is `req.ip`, else the socket's address. */
  function PayloadNotes(body: ClockBody): JsValue { Or(body.notes, Str("")) }

  function DeviceInfo(req: ClockRequest): JsValue { Or(FromOption(req.userAgent), Str("Unknown")) }

  function IpAddress(req: ClockRequest): JsValue { Or(FromOption(req.ip), FromOption(req.remoteAddress)) }

  /** The id, the time and the location of the payload, read back by key. */
  lemma ClockPayloadFields(action: Action, req: ClockRequest, timestamp: string)
    ensures var p := ClockPayload(action, req, timestamp);
      && Get(p, "employee_id") == req.body.employeeId
      && Get(p, PayloadTimeKey(action)) == Str(timestamp)
      && Get(p, "location") == PayloadLocation(req.body)
  {
    var p := ClockPayload(action, req, timestamp);
    var timeKey := PayloadTimeKey(action);
    assert timeKey == "clock_in_time" || timeKey == "clock_out_time";
    assert p[0].0 == "employee_id" && p[1].0 == timeKey && p[2].0 == "location";
    assert Get(p, "employee_id") == p[0].1 by { GetAt(p, 0, "employee_id"); }
    assert Get(p, timeKey) == p[1].1 by { GetAt(p, 1, timeKey); }
    assert Get(p, "location") == p[2].1 by { GetAt(p, 2, "location"); }
  }

  /** The notes and the device of the payload, read back by key. */
  lemma ClockPayloadExtras(action: Action, req: ClockRequest, timestamp: string)
    ensures var p := ClockPayload(action, req, timestamp);
      && Get(p, "notes") == PayloadNotes(req.body)
      && Get(p, "device_info") == DeviceInfo(req)
  {
    var p := ClockPayload(action, req, timestamp);
    var timeKey := PayloadTimeKey(action);
    assert timeKey == "clock_in_time" || timeKey == "clock_out_time";
    assert p[0].0 == "employee_id" && p[1].0 == timeKey && p[2].0 == "location";
    assert p[3].0 == "notes" && p[4].0 == "device_info";
    assert Get(p, "notes") == p[3].1 by { GetAt(p, 3, "notes"); }
    assert Get(p, "device_info") == p[4].1 by { GetAt(p, 4, "device_info"); }
  }

  /** The payload's location is the coordinate pair, in that order,
      exactly when both coordinates are truthy, and `null` otherwise. */
  lemma PayloadLocationRule(action: Action, req: ClockRequest, timestamp: string)
    ensures var loc := Get(ClockPayload(action, req, timestamp), "location");
      && (loc.Obj? <==> Truthy(req.body.latitude) && Truthy(req.body.longitude))
      && (loc.Obj? ==> Get(loc.fields, "latitude") == req.body.latitude && Get(loc.fields, "longitude") == req.body.longitude)
      && (!loc.Obj? ==> loc == Null)
  {
    ClockPayloadFields(action, req, timestamp);
    var loc := PayloadLocation(req.body);
    if loc.Obj? {
      assert Get(loc.fields, "latitude") == req.body.latitude by { GetAt(loc.fields, 0, "latitude"); }
      assert Get(loc.fields, "longitude") == req.body.longitude by { GetAt(loc.fields, 1, "longitude"); }
    }
  }

  /** Notes default to "" and the device to "Unknown" (a falsy value is
      replaced, a truthy one kept); the id and time travel under their
      snake_case keys. */
  lemma PayloadDefaults(action: Action, req: ClockRequest, timestamp: string)
    ensures var p := ClockPayload(action, req, timestamp);
      && Get(p, "notes") == (if Truthy(req.body.notes) then req.body.notes else Str(""))
      && Get(p, "device_info") == (if req.userAgent.Some? && req.userAgent.value != "" then Str(req.userAgent.value) else Str("Unknown"))
      && Get(p, PayloadTimeKey(action)) == Str(timestamp)
      && Get(p, "employee_id") == req.body.employeeId
  {
    ClockPayloadFields(action, req, timestamp);
    ClockPayloadExtras(action, req, timestamp);
  }

  /** The fields of the mock `data`, read back by key. */
  lemma MockClockDataFields(action: Action, req: ClockRequest, timestamp: string)
    ensures var d := MockClockData(action, req, timestamp);
      var p := ClockPayload(action, req, timestamp);
      && Get(d, "employeeId") == req.body.employeeId
      && Get(d, DataTimeKey(action)) == Str(timestamp)
      && Get(d, "location") == Get(p, "location")
      && Get(d, "notes") == Get(p, "notes")
      && Get(d, "mock") == Bool(true)
  {
    var d := MockClockData(action, req, timestamp);
    var timeKey := DataTimeKey(action);
    assert timeKey == "clockInTime" || timeKey == "clockOutTime";
    assert d[0].0 == "employeeId" && d[1].0 == timeKey && d[2].0 == "location";
    assert d[3].0 == "notes" && d[4].0 == "mock";
    assert Get(d, "employeeId") == d[0].1 by { GetAt(d, 0, "employeeId"); }
    assert Get(d, timeKey) == d[1].1 by { GetAt(d, 1, timeKey); }
    assert Get(d, "location") == d[2].1 by { GetAt(d, 2, "location"); }
    assert Get(d, "notes") == d[3].1 by { GetAt(d, 3, "notes"); }
    assert Get(d, "mock") == d[4].1 by { GetAt(d, 4, "mock"); }
  }

  /** The mock answer echoes what the provider would have been sent: the
      employee id, the time, the location and the notes, and is marked
      as mock data. */
  lemma MockEchoesPayload(action: Action, req: ClockRequest, env: Env, timestamp: string, verdict: Result<bool>)
    requires PassesClockChecks(req, env, verdict) && !HasApiKey(env)
    ensures var r := DecideClock(action, req, env, timestamp, verdict);
      var p := ClockPayload(action, req, timestamp);
      && r.MockOk? && r.data.Obj?
      && Get(r.data.fields, "mock") == Bool(true)
      && Get(r.data.fields, "employeeId") == Get(p, "employee_id")
      && Get(r.data.fields, DataTimeKey(action)) == Get(p, PayloadTimeKey(action))
      && Get(r.data.fields, "location") == Get(p, "location")
      && Get(r.data.fields, "notes") == Get(p, "notes")
  {
    var d := MockClockData(action, req, timestamp);
    assert DecideClock(action, req, env, timestamp, verdict) == MockOk(MockMessage(action), Obj(d));
    MockClockDataFields(action, req, timestamp);
    ClockPayloadFields(action, req, timestamp);
    ClockPayloadExtras(action, req, timestamp);
  }

  /** `employeeId` and `clockInTime`/`clockOutTime` start with a letter,
      so they are not array index keys. */
  lemma HeadKeysAreNotIndexes(action: Action, head: Fields, id: JsValue, time: JsValue)
    requires head == [("employeeId", id), (DataTimeKey(action), time)]
    ensures NoIndexKeys(head)
  {
    assert "employeeId"[0] == 'e';
    assert DataTimeKey(action)[0] == 'c';
  }

  /** In real mode the provider's fields are spread last: a key the
      provider sends (as a JSON object) wins, even over `employeeId` and
      the time; the other two keys keep the handler's values. When the
      provider sends no array index key, `employeeId` and the time also
      come first in key order. */
  lemma UpstreamFieldsWin(action: Action, req: ClockRequest, env: Env, timestamp: string, fields: Fields, k: string)
    requires UniqueKeys(fields)
    ensures var r := FinishClock(action, req, env, timestamp, Answered(Obj(fields)));
      && (k in Keys(fields) ==> Get(r.data.fields, k) == Get(fields, k))
      && (k !in Keys(fields) && k == "employeeId" ==> Get(r.data.fields, k) == req.body.employeeId)
      && (k !in Keys(fields) && k == DataTimeKey(action) ==> Get(r.data.fields, k) == Str(timestamp))
      && (NoIndexKeys(fields) ==> Keys(r.data.fields)[..2] == ["employeeId", DataTimeKey(action)])
  {
    var head := [("employeeId", req.body.employeeId), (DataTimeKey(action), Str(timestamp))];
    AssignGet(head, fields, k);
    HeadKeysAreNotIndexes(action, head, req.body.employeeId, Str(timestamp));
    AssignKeys(head, fields);
  }

  // ---------------------------------------------------------------------
  // Attendance records
  // ---------------------------------------------------------------------

  const AttendanceFailure := "Failed to get attendance records"

  /** The query sent to the provider; a missing or empty date becomes the
      first or last day of the current month. */
  function AttendanceParams(q: AttendanceQuery, clock: Clock): Fields {
    [ ("employee_id", Str(q.employeeId)),
      ("start_date", Or(FromOption(q.startDate), Str(clock.monthStart))),
      ("end_date", Or(FromOption(q.endDate), Str(clock.monthEnd))) ]
  }

  /** The fixed mock record: today, 09:00 to 17:00, eight hours, present. */
  function MockRecord(clock: Clock): JsValue {
    Obj([ ("date", Str(clock.today)),
          ("clockIn", Str("09:00:00")),
          ("clockOut", Str("17:00:00")),
          ("workingHours", Num(Finite(8.0))),
          ("status", Str("Present")) ])
  }

  function MockAttendanceData(q: AttendanceQuery, clock: Clock): Fields {
    var params := AttendanceParams(q, clock);
    [ ("employeeId", Str(q.employeeId)),
      ("period", Obj([("startDate", Get(params, "start_date")), ("endDate", Get(params, "end_date"))])),
      ("records", Arr([MockRecord(clock)])),
      ("mock", Bool(true)) ]
  }

  /** `getAttendance` up to the provider call. */
  function DecideAttendance(q: AttendanceQuery, env: Env, clock: Clock): (r: Response)
    ensures q.employeeId == "" ==> r == Status400(MissingEmployeeId)
    ensures q.employeeId != "" && !HasApiKey(env) ==>
              r == MockOk("Mock attendance data (Configure TALENTA_API_KEY for real API)", Obj(MockAttendanceData(q, clock)))
    ensures r.CallUpstream? <==> q.employeeId != "" && HasApiKey(env)
    ensures r.CallUpstream? ==>
              r.config == ApiConfig("GET", BaseUrl(env) + "/attendance/records", None, Some(Obj(AttendanceParams(q, clock))))
    ensures !r.Error500?
  {
    if q.employeeId == "" then Status400(MissingEmployeeId)
    else if !HasApiKey(env) then
      MockOk("Mock attendance data (Configure TALENTA_API_KEY for real API)", Obj(MockAttendanceData(q, clock)))
    else Dispatch(AttendanceFailure, env, MakeApiCall(env, "/attendance/records", "GET", Null, Obj(AttendanceParams(q, clock))))
  }

  /** A supplied date is passed through unchanged; only a missing or empty
      one is replaced by the month bound, and the mock period shows the
      same dates the provider would have been asked for. */
  lemma AttendanceDates(q: AttendanceQuery, clock: Clock, env: Env)
    ensures var params := AttendanceParams(q, clock);
      && Get(params, "start_date") == (if q.startDate.Some? && q.startDate.value != "" then Str(q.startDate.value) else Str(clock.monthStart))
      && Get(params, "end_date") == (if q.endDate.Some? && q.endDate.value != "" then Str(q.endDate.value) else Str(clock.monthEnd))
    ensures q.employeeId != "" && !HasApiKey(env) ==>
      var period := Get(MockAttendanceData(q, clock), "period");
      && period.Obj?
      && Get(period.fields, "startDate") == Get(AttendanceParams(q, clock), "start_date")
      && Get(period.fields, "endDate") == Get(AttendanceParams(q, clock), "end_date")
  {
    var params := AttendanceParams(q, clock);
    assert Get(params, "start_date") == params[1].1 by { GetAt(params, 1, "start_date"); }
    assert Get(params, "end_date") == params[2].1 by { GetAt(params, 2, "end_date"); }
    var data := MockAttendanceData(q, clock);
    assert Get(data, "period") == data[1].1 by { GetAt(data, 1, "period"); }
    var period := data[1].1;
    assert Get(period.fields, "startDate") == period.fields[0].1 by { GetAt(period.fields, 0, "startDate"); }
    assert Get(period.fields, "endDate") == period.fields[1].1 by { GetAt(period.fields, 1, "endDate"); }
  }

  /** The answer after a provider call for records or a summary. */
  function FinishRead(failure: string, env: Env, outcome: UpstreamResult): (r: Response)
    ensures outcome.Answered? ==> r == Ok200(None, outcome.data)
    ensures outcome.Threw? ==> r == Caught(failure, env, outcome.message)
  {
    match outcome
    case Answered(data) => Ok200(None, data)
    case Threw(message) => Caught(failure, env, message)
  }

  /** `getAttendance`. */
  function GetAttendance(q: AttendanceQuery, env: Env, clock: Clock, upstream: ApiConfig -> UpstreamResult): (r: Response)
    ensures !r.CallUpstream?
    ensures r.Ok200? ==> q.employeeId != "" && HasApiKey(env)
    ensures r.Error500? ==> r.message == AttendanceFailure
    ensures var d := DecideAttendance(q, env, clock);
      && (!d.CallUpstream? ==> r == d)
      && (d.CallUpstream? ==> r == FinishRead(AttendanceFailure, env, upstream(d.config)))
  {
    match DecideAttendance(q, env, clock)
    case CallUpstream(config) => FinishRead(AttendanceFailure, env, upstream(config))
    case other => other
  }

  // ---------------------------------------------------------------------
  // Attendance summary
  // ---------------------------------------------------------------------

  const SummaryFailure := "Failed to get attendance summary"

  /** A query value, or the number the clock supplied in its place. */
  datatype Param = Given(text: string) | Default(number: nat)

  /** `value || fallback` for a query string and a clock number. */
  function ParamOf(value: Option<string>, fallback: nat): (p: Param)
    ensures p.Given? <==> value.Some? && value.value != ""
    ensures p.Given? ==> p.text == value.value
    ensures p.Default? ==> p.number == fallback
  {
    if Truthy(FromOption(value)) then Given(value.value) else Default(fallback)
  }

  /** The parameter as a JavaScript value: a string, or a number. */
  function ParamValue(p: Param): JsValue {
    match p
    case Given(t) => Str(t)
    case Default(n) => Num(Finite(n as real))
  }

  /** `p.toString()` (also what a template literal inserts). */
  function ParamText(p: Param): string {
    match p
    case Given(t) => t
    case Default(n) => NatToDecimal(n)
  }

  function SummaryMonth(q: SummaryQuery, clock: Clock): Param { ParamOf(q.month, clock.month) }

  function SummaryYear(q: SummaryQuery, clock: Clock): Param { ParamOf(q.year, clock.year) }

  function SummaryParams(q: SummaryQuery, clock: Clock): Fields {
    [ ("employee_id", Str(q.employeeId)),
      ("month", ParamValue(SummaryMonth(q, clock))),
      ("year", ParamValue(SummaryYear(q, clock))) ]
  }

  /** `${year}-${month.toString().padStart(2, "0")}`. */
  function SummaryPeriod(q: SummaryQuery, clock: Clock): string {
    ParamText(SummaryYear(q, clock)) + "-" + PadStart2(ParamText(SummaryMonth(q, clock)))
  }

  /** The fixed mock figures. */
  function MockSummaryFigures(): JsValue {
    Obj([ ("totalWorkingDays", Num(Finite(22.0))),
          ("presentDays", Num(Finite(20.0))),
          ("absentDays", Num(Finite(2.0))),
          ("lateDays", Num(Finite(3.0))),
          ("overtimeHours", Num(Finite(15.0))),
          ("totalWorkingHours", Num(Finite(160.0))) ])
  }

  function MockSummaryData(q: SummaryQuery, clock: Clock): Fields {
    [ ("employeeId", Str(q.employeeId)),
      ("period", Str(SummaryPeriod(q, clock))),
      ("summary", MockSummaryFigures()),
      ("mock", Bool(true)) ]
  }

  /** `getAttendanceSummary` up to the provider call. */
  function DecideSummary(q: SummaryQuery, env: Env, clock: Clock): (r: Response)
    ensures q.employeeId == "" ==> r == Status400(MissingEmployeeId)
    ensures q.employeeId != "" && !HasApiKey(env) ==>
              r == MockOk("Mock attendance summary (Configure TALENTA_API_KEY for real API)", Obj(MockSummaryData(q, clock)))
    ensures r.CallUpstream? <==> q.employeeId != "" && HasApiKey(env)
    ensures r.CallUpstream? ==>
              r.config == ApiConfig("GET", BaseUrl(env) + "/attendance/summary", None, Some(Obj(SummaryParams(q, clock))))
    ensures !r.Error500?
  {
    if q.employeeId == "" then Status400(MissingEmployeeId)
    else if !HasApiKey(env) then
      MockOk("Mock attendance summary (Configure TALENTA_API_KEY for real API)", Obj(MockSummaryData(q, clock)))
    else Dispatch(SummaryFailure, env, MakeApiCall(env, "/attendance/summary", "GET", Null, Obj(SummaryParams(q, clock))))
  }

  /** `getAttendanceSummary`. */
  function GetAttendanceSummary(q: SummaryQuery, env: Env, clock: Clock, upstream: ApiConfig -> UpstreamResult): (r: Response)
    ensures !r.CallUpstream?
    ensures r.Ok200? ==> q.employeeId != "" && HasApiKey(env)
    ensures r.Error500? ==> r.message == SummaryFailure
    ensures var d := DecideSummary(q, env, clock);
      && (!d.CallUpstream? ==> r == d)
      && (d.CallUpstream? ==> r == FinishRead(SummaryFailure, env, upstream(d.config)))
  {
    match DecideSummary(q, env, clock)
    case CallUpstream(config) => FinishRead(SummaryFailure, env, upstream(config))
    case other => other
  }

  /** With the month taken from the clock, the period is the year, a dash
      and exactly two month digits, which read back as the month. */
  lemma DefaultPeriodHasTwoDigitMonth(q: SummaryQuery, clock: Clock)
    requires q.month.None? || q.month == Some("")
    ensures var mm := PadStart2(NatToDecimal(clock.month));
      && SummaryPeriod(q, clock) == ParamText(SummaryYear(q, clock)) + "-" + mm
      && |mm| == 2 && AllDigits(mm) && DecimalValue(mm) == clock.month
  {
    assert SummaryMonth(q, clock) == Default(clock.month);
    PaddedMonthDigits(clock.month);
  }

  /** A one-character month from the query gets a leading zero; longer
      values are used as given. */
  lemma GivenMonthPadding(q: SummaryQuery, clock: Clock)
    requires q.month.Some? && q.month.value != ""
    ensures var period := SummaryPeriod(q, clock);
      var year := ParamText(SummaryYear(q, clock));
      && (|q.month.value| == 1 ==> period == year + "-0" + q.month.value)
      && (|q.month.value| >= 2 ==> period == year + "-" + q.month.value)
  {
  }
}

=== FILE: wrappers.dfy ===
/** The two shapes of "maybe" the proxy needs: a setting or header that
    may be absent, and a step that may throw a JavaScript exception. */
module Wrappers {

  /** A value that may be absent (`undefined` in the source). */
  datatype Option<T> = None | Some(value: T)

  /** A computed value, or the message of the exception that was thrown
      instead. */
  datatype Result<T> = Ok(value: T) | Thrown(message: string)
}
